=== FILE: README.md ===
# Frognance finance core in Dafny

This project models the group-administration and bookkeeping core of the
Frognance personal-finance application. It covers:

- the invitation workflow: an admin invites a user by username; the invitee
  accepts or rejects;
- member administration: listing a group's members and removal of a member
  by an admin;
- the pending-invitation and income listings, including the income total;
- the validation rules of the invitation, transaction and category forms;
- the column domains and referential actions (CASCADE, SET_NULL) of
  `Category` and `Transaction`.

The whole database is one immutable `State`:

- users are a username-to-id map;
- groups are a map;
- memberships, invitations, categories and transactions are sequences in
  table order;
- each table has a primary-key counter.

Every view that handles a form or changes the database is a pure function
from the authenticated user's id, the request parameters, the current time
`now` (for the views that stamp a row) and a state to a
`Step(outcome, state)`. The outcome is one of `Ok`, `Forbidden`, `NotFound`,
`AlreadyProcessed`, `CannotRemoveAdmin`, `CannotRemoveSelf` or
`ValidationError(errors)`. The read-only views return what they display:
`PendingInvitations`, `GroupList` and `IncomeList` return rows (the last with
its total), `ListMembers` returns the member page or the refusal, and
`TransactionDetail` returns the transaction if there is one. Lookups by id
(`get_object_or_404`) take the first matching row. Every `order_by` is a
stable sort by a total preorder. Decimal amounts are integer cents.

Files:

- `util.dfy`: `Option`, `Result`, first-match lookup, filter, sum and
  row removal on sequences.
- `sorting.dfy`: the stable insertion sort used for `order_by`.
- `models.dfy`: records, amount domain, transaction types, invariants and
  the CASCADE / SET_NULL actions (finance/models.py).
- `forms.dfy`: `InvitationForm`, `TransactionForm`, `CategoryForm`
  (finance/forms.py).
- `views.dfy`: the views of finance/views.py.
- `properties.dfy`: lemmas relating several operations.

`Valid` is the database invariant. Every operation is proved to preserve it.
It requires all of the following:

- primary keys of memberships and invitations are distinct and below their
  counters;
- each (user, group) pair has at most one membership;
- each (invitee, group) pair has at most one pending invitation;
- no member of a group has a pending invitation to that group;
- stored names and amounts respect their column bounds;
- every category a transaction references exists.

Facts about the code that the model relies on:

- `Category.user` is a non-nullable foreign key (finance/models.py:27-32),
  so every category has an owner.
- Nothing restricts the sign of an amount. The model accepts any amount with
  at most ten digits, two of them after the point.
- Nothing checks that a transaction's category has an `is_income` flag
  matching the transaction's type. The model does not check it either.
- finance/models.py defines no `UserGroupMember` class, although
  finance/views.py:7 and finance/forms.py:4 import it, so no uniqueness
  constraint on (user, group) is visible; and `accept_invitation` creates a
  membership unconditionally
  (finance/views.py:155). The model therefore assumes no uniqueness of
  (user, group) in memberships. It proves instead that the modelled
  operations keep one membership per pair, starting from any state that has
  it.
- `UserGroup`, `UserGroupMember` and `Invitation` are imported by the views
  and forms but are not defined in finance/models.py. Their fields are
  inferred from how finance/views.py and finance/forms.py use them. The same
  holds for the `group` field of `Transaction` (finance/views.py:42).

## Model

| member | source | states |
|---|---|---|
| Models.ParseTxType | finance/models.py:42-48 | a stored type code is accepted exactly when it is "income" or "expense", and then names exactly one type whose code it is |
| Models.TxTypeCodeRoundTrip | finance/models.py:42-48 | every transaction type's code parses back to that type and fits the seven-character column |
| Models.FromCents | finance/models.py:49 | every cent value written with two decimals converts back to the same cents |
| Models.AcceptedAmountFits | finance/models.py:49 | a decimal accepted by the ten-digit, two-decimal field has at most two decimals and its value in cents is below 10^10 in magnitude |
| Models.CentsAccepted | finance/models.py:49 | conversely every value below 10^10 cents in magnitude is accepted by the field when written with two decimals |
| Models.DigitCountBound | finance/models.py:49 | a number has at most k digits exactly when it is below 10^k (the digit count behind the field's max_digits check) |
| Models.Detach | finance/models.py:50 | SET_NULL on one row: the category is cleared exactly when it is among the deleted ones; nothing else in the row changes |
| Models.DeleteCategory | finance/models.py:50 | deleting a category removes exactly the categories with that id, keeping every other category with its multiplicity; every transaction survives in place, with its category cleared if it referenced the deleted one and otherwise unchanged |
| Models.DeleteUser | finance/models.py:27-50 | deleting a user removes the user row, so exactly the usernames of that user stop resolving; it removes exactly that user's categories (every other category kept with its multiplicity) and transactions (CASCADE); the other users' transactions survive in table order, one for one, each with its category cleared when it was one of the deleted categories |
| Properties.DeleteUserIncomeTotals | finance/models.py:47-50 | after deleting a user, that user's income total is zero and every other user's income total is unchanged |
| Forms.CleanCharField | finance/forms.py:46 | a required character field, as Django's form `CharField` checks it, is valid exactly when non-empty, within its maximum length and free of U+0000; an empty value is reported as required only, otherwise too long and null characters are each reported exactly when they apply; a valid value is returned unchanged |
| Forms.CleanToUsername | finance/forms.py:52-62 | valid exactly when the username names a user who is neither a member of the group nor holds a pending invitation to it; errors in the order unknown user, already in group, invitation already sent; success returns the username unchanged |
| Forms.CleanInvitationForm | finance/forms.py:45-62 | the field check (required, 150 characters, no U+0000) comes first and, when it fails, its own errors are reported; only when it passes does the username check run, and then its single error is the one reported; valid exactly when both pass |
| Forms.CleanTransaction | finance/forms.py:10-27 | valid exactly when the type is one of the two choices, the amount is accepted, the category is absent or one of the user's own, and the description has no U+0000, and the group is absent or one the user belongs to; on failure a field is reported exactly when it is invalid (type, amount, category, description, group), and on success the cleaned values are the submitted ones with the amount in cents |
| Forms.CleanCategoryForm | finance/forms.py:31-34 | valid exactly when the name is non-empty, at most 100 characters and free of U+0000; an empty name is reported as required only, otherwise too long and null characters are each reported exactly when they apply |
| Views.Invite | finance/views.py:122-138 | NotFound exactly when the group does not exist; Forbidden exactly when it exists and the caller has no admin membership; otherwise a form error gives ValidationError with the form's errors; none of these changes the state; success appends exactly one pending invitation from the caller to the named user for the group and changes nothing else |
| Views.PendingInvitations | finance/views.py:143-145 | exactly the invitations addressed to the user that are pending, with their multiplicities, newest first |
| Views.Accept | finance/views.py:150-158 | no invitation with that id addressed to the caller gives NotFound; a processed one gives AlreadyProcessed; neither changes the state; otherwise the invitation becomes accepted and exactly one member-role membership for the caller in its group is added |
| Views.Reject | finance/views.py:162-169 | the same lookup and refusals as accepting; otherwise only that invitation becomes rejected |
| Views.ListMembers | finance/views.py:174-181 | unknown group gives NotFound, a non-member caller gets Forbidden; otherwise exactly the group's memberships, admins first and then by join time, and whether the caller is an admin |
| Views.RoleOrder | finance/views.py:180 | ordering by role then join time puts every admin before every member and orders equal roles by join time |
| Views.RemoveMember | finance/views.py:174-193 | guards in order: unknown group gives NotFound, a non-member or non-admin caller gets Forbidden, no such membership in the group gives NotFound, then the row the lookup finds decides: an admin row is refused, the caller's own row is refused, any other row is deleted; each of these outcomes happens only in its case; refusals leave the state unchanged; success deletes exactly the row found |
| Views.GroupList | finance/views.py:102-103 | exactly the user's memberships, most recently joined first |
| Views.AddTransaction | finance/views.py:36-44 | succeeds exactly when the transaction form is valid; then appends one transaction owned by the caller with the cleaned values and the chosen group, and changes nothing else; a form error leaves the state unchanged |
| Views.TransactionDetail | finance/views.py:53-54 | finds a transaction only among the caller's own with that id; nothing is found exactly when no such transaction exists |
| Views.AddCategory | finance/views.py:60-66 | succeeds exactly when the name is non-empty, at most 100 characters and free of U+0000, and then appends one category owned by the caller with no icon and is_income false; otherwise it reports the name field's errors and changes nothing |
| Views.IncomeList | finance/views.py:204-206 | exactly the user's income transactions, newest first; the total is the sum of their amounts and zero when there are none |
| Properties.AppendMembershipKeepsTable | finance/views.py:155 | adding a membership with a fresh id for a pair without one keeps ids distinct and one membership per pair |
| Properties.ProcessKeepsInvitationTable | finance/views.py:156-157 | marking an invitation processed keeps invitation ids and the one-pending-per-pair rule |
| Properties.AcceptKeepsNoPendingForMembers | finance/views.py:155-157 | accepting the only pending invitation of a pair and adding its membership leaves no pending invitation for a member |
| Properties.RejectKeepsNoPendingForMembers | finance/views.py:167-168 | rejecting an invitation creates no pending invitation for a member |
| Properties.RemoveKeepsMembershipTable | finance/views.py:192 | deleting one membership row keeps ids distinct, one membership per pair, and no pending invitation for a member |
| Properties.RemoveLeavesOtherIds | finance/views.py:192 | with distinct ids, deleting a row removes exactly the row with its id |
| Properties.RemovedPairGone | finance/views.py:192 | with one membership per pair, the deleted row's pair has no membership left |
| Properties.InvitePreservesValid | finance/views.py:122-133 | inviting keeps the database invariant, in particular at most one pending invitation per invitee and group |
| Properties.AcceptPreservesValid | finance/views.py:150-158 | accepting keeps the database invariant |
| Properties.RejectPreservesValid | finance/views.py:162-169 | rejecting keeps the database invariant |
| Properties.RemoveMemberPreservesValid | finance/views.py:183-193 | removing a member keeps the database invariant |
| Properties.AddTransactionPreservesValid | finance/views.py:36-44 | adding a transaction keeps the database invariant: its amount fits the column and its category exists |
| Properties.AddCategoryPreservesValid | finance/views.py:60-66 | adding a category keeps the database invariant: its name fits the column |
| Properties.DeleteCategoryPreservesValid | finance/models.py:50 | after SET_NULL no transaction references a missing category |
| Properties.DeleteUserPreservesValid | finance/models.py:27-50 | after the cascade no surviving transaction references a deleted category |
| Properties.DeletedUserNotInvitable | finance/forms.py:54-57 | after a user is deleted, an admin's invitation by that user's username (which passes the field check) is refused as an unknown user and changes nothing |
| Properties.InviteAdvancesInvitations | finance/views.py:133 | inviting keeps every existing invitation unchanged in place |
| Properties.AcceptAdvancesInvitations | finance/views.py:152-157 | accepting changes no invitation except in its status, and no processed invitation at all |
| Properties.RejectAdvancesInvitations | finance/views.py:164-168 | rejecting changes no invitation except in its status, and no processed invitation at all |
| Properties.HandlersAdvanceInvitations | finance/views.py:122-193 | no handler changes an accepted or rejected invitation, or anything but the status of a pending one |
| Properties.InviteTwiceRefused | finance/forms.py:60-61 | right after a successful invitation, the same invitation is refused with "invitation already sent" and changes nothing |
| Properties.InviteListedAsPending | finance/views.py:143-145 | a successful invitation appears in the invitee's pending list |
| Properties.ProcessedInvitationIsFinal | finance/views.py:152-153 | with distinct ids, accepting or rejecting a processed invitation gives AlreadyProcessed and changes nothing |
| Properties.AcceptOnce | finance/views.py:150-158 | after accepting, the invitee is a member of the group, exactly one membership was added, the invitation is no longer pending, and accepting or rejecting it again is refused |
| Properties.RejectOnce | finance/views.py:162-169 | after rejecting, memberships are unchanged and accepting or rejecting again is refused |
| Properties.RemoveMemberDeletesOneRow | finance/views.py:187-192 | with distinct membership ids a successful removal deletes exactly the row with the given id |
| Properties.RemoveMemberSucceeds | finance/views.py:183-193 | with distinct membership ids, an admin removing another user's member-role row of the group gets Ok, and exactly that row is deleted |
| Properties.RemoveMemberRefusesAdmin | finance/views.py:187-189 | with distinct membership ids, targeting an admin row of the group is refused as an admin removal and changes nothing |
| Properties.SelfRemovalRefusalUnreachable | finance/views.py:190-191 | with one membership per pair, the "cannot remove yourself" refusal never happens, because an admin's own row is refused earlier as an admin row |
| Properties.SelfRemovalRefusalWitness | finance/views.py:190-191 | a state with an admin who also holds a member-role row in the same group reaches that refusal |
| Properties.ReinviteAfterRemoval | finance/views.py:122-193 | under the invariant an admin removing another user's member-role row succeeds, and the admin can then invite that user to the group again |
| Properties.RemovalReopensInvitation | finance/forms.py:58-61 | after a removal the admin keeps their row and the removed user has neither a membership nor a pending invitation in the group |
| Properties.InviteSucceeds | finance/views.py:122-133 | an existing group, an admin caller and a valid username lead to a sent invitation |
| Properties.IncomeTotalIsTableSum | finance/views.py:205-206 | the income total is the sum of the user's income amounts in table order, whatever the display order |
| Properties.NoIncomeZeroTotal | finance/views.py:206 | a user without income transactions has a total of zero |
| Properties.AddTransactionIncomeTotal | finance/views.py:205-206 | adding a transaction raises its owner's income total by its amount when it is an income and changes no other total |
| Properties.TripScenario | finance/views.py:122-193 | on a concrete database, an invitation, its acceptance, the removal of the new member and a second invitation all succeed, with the memberships and invitations stated |

## Left out

- HTTP details are not modelled: GET renders, redirects, response classes
  and `login_required`. The caller is an explicit user id. The unhandled
  `DoesNotExist` of `transaction_detail` is the `None` result.
- Whitespace is not stripped: Django's form `CharField` strips it from
  `to_username`, from the category name and from the transaction
  description (a `TextField`, whose form field is a stripping `CharField`).
  The model takes the submitted strings as already stripped.
- Decimal strings are not parsed. The amount arrives as sign, coefficient
  and exponent; non-finite values are not modelled.
- The database's primary-key uniqueness for categories and transactions is
  not part of the invariant; it states id distinctness only for memberships
  and invitations. New categories and transactions take their ids from
  per-table counters. Without distinct ids, `TransactionDetail` returns the
  first of the caller's transactions with the id (finance/views.py:54), and
  `DeleteCategory` removes every category with the id. Both coincide with
  the database's behaviour whenever ids are distinct.
- User deletion does not remove the user's memberships or invitations.
  finance/models.py defines neither `UserGroupMember` nor `Invitation`, so
  the on_delete actions of their user foreign keys are unknown. Group deletion is left out for the same reason.
- `MultipleObjectsReturned` is not modelled. It would arise when the group
  choice in the transaction form matches a group through two memberships
  of the caller. Under the invariant a caller has one membership per
  group, so this cannot happen.
- Error messages are tags (`UnknownUser`, `AlreadyInGroup`, ...), not
  Django's message texts.
- `dashboard`, `export_operation_to_excel`, `create_group`, `join_group`,
  `leave_group` and `home` are left out. The services they call are not
  defined in finance/services.py, or the views call themselves.
- Everything under accounts/, URL routing, admin registration and the REST
  serializers are configuration or framework wrappers and are left out.
- Concurrency and atomicity are not modelled. For example, accept performs
  two writes; each operation is one sequential step.
- Views.RemoveMember: takes the membership id as a number. A non-numeric
  `member_id` from the POST body is not modelled.

=== FILE: forms.dfy ===
/** Form validation (finance/forms.py): the invitation form's username
    check, the transaction form's restricted choices and the category form.
    Each form is a function from the submitted values to either the cleaned
    values or the field errors it reports. */
module Forms {
  import opened Util
  import opened Models

  datatype Field = UsernameField | TypeField | AmountField | CategoryField | DescriptionField | GroupField | NameField

  datatype FormError =
    | Required(field: Field)
    | TooLong(field: Field, maxLength: nat)
    | InvalidChoice(field: Field)
      /** Every form character field rejects a value containing U+0000. */
    | NullCharacters(field: Field)
    | AmountRejected
      /** No user has the submitted username. */
    | UnknownUser
      /** The user already has a membership in the group. */
    | AlreadyInGroup
      /** A pending invitation for that user and group exists. */
    | InvitationAlreadySent

  /** `to_username` is a CharField of at most 150 characters. */
  const UsernameMaxLength: nat := 150

  /** A required character field: present, not longer than `maxLength` and
      free of U+0000. An empty value is reported as missing and nothing else;
      otherwise the length and the null-character checks each report their
      own error, in that order. */
  function CleanCharField(field: Field, value: string, maxLength: nat): (r: Result<string, seq<FormError>>)
    ensures r.Success? <==> 0 < |value| <= maxLength && '\0' !in value
    ensures r.Success? ==> r.value == value
    ensures |value| == 0 ==> r == Failure([Required(field)])
    ensures 0 < |value| && r.Failure? ==>
      && 0 < |r.error|
      && (TooLong(field, maxLength) in r.error <==> maxLength < |value|)
      && (NullCharacters(field) in r.error <==> '\0' in value)
      && Required(field) !in r.error
  {
    if |value| == 0 then Failure([Required(field)])
    else
      var errors := (if |value| > maxLength then [TooLong(field, maxLength)] else [])
                    + NullCharErrors(field, value);
      if errors == [] then Success(value) else Failure(errors)
  }

  /** The null-character check on an optional character field. */
  function NullCharErrors(field: Field, value: string): seq<FormError>
  {
    if '\0' in value then [NullCharacters(field)] else []
  }

  // InvitationForm

  /** `clean_to_username` for an invitation to group `g`: the username must
      name a user, who must not belong to `g` and must not already have a
      pending invitation to `g`; the first failing check decides the error. */
  function CleanToUsername(s: State, g: GroupId, username: string): (r: Result<string, FormError>)
    ensures r.Success? <==>
      && username in s.users
      && !IsMember(s, s.users[username], g)
      && !HasPendingInvitation(s, s.users[username], g)
    ensures r.Success? ==> r.value == username
    ensures username !in s.users ==> r == Failure(UnknownUser)
    ensures username in s.users && IsMember(s, s.users[username], g) ==> r == Failure(AlreadyInGroup)
    ensures username in s.users && !IsMember(s, s.users[username], g) && HasPendingInvitation(s, s.users[username], g) ==>
      r == Failure(InvitationAlreadySent)
  {
    if username !in s.users then Failure(UnknownUser)
    else
      var to := s.users[username];
      if IsMember(s, to, g) then Failure(AlreadyInGroup)
      else if HasPendingInvitation(s, to, g) then Failure(InvitationAlreadySent)
      else Success(username)
  }

  /** The whole invitation form: the field's own checks come first, then
      `clean_to_username`. */
  function CleanInvitationForm(s: State, g: GroupId, username: string): (r: Result<string, seq<FormError>>)
    ensures r.Success? <==>
      && 0 < |username| <= UsernameMaxLength
      && '\0' !in username
      && username in s.users
      && !IsMember(s, s.users[username], g)
      && !HasPendingInvitation(s, s.users[username], g)
    ensures r.Success? ==> r.value == username
    ensures r.Failure? && r.error in {[UnknownUser], [AlreadyInGroup], [InvitationAlreadySent]} ==>
      0 < |username| <= UsernameMaxLength && '\0' !in username
    ensures !(0 < |username| <= UsernameMaxLength && '\0' !in username) ==>
      r.Failure? && r.error == CleanCharField(UsernameField, username, UsernameMaxLength).error
    ensures 0 < |username| <= UsernameMaxLength && '\0' !in username && r.Failure? ==>
      r.error == [CleanToUsername(s, g, username).error]
  {
    match CleanCharField(UsernameField, username, UsernameMaxLength)
    case Failure(errors) => Failure(errors)
    case Success(name) =>
      match CleanToUsername(s, g, name)
      case Failure(e) => Failure([e])
      case Success(n) => Success(n)
  }

  // TransactionForm

  /** The values a user submits to add a transaction. */
  datatype TransactionInput = TransactionInput(
    tType: string,
    amount: Decimal,
    category: Option<CategoryId>,
    description: string,
    group: Option<GroupId>)

  /** The cleaned values; `amount` is in cents. */
  datatype CleanedTransaction = CleanedTransaction(
    tType: TxType,
    amount: int,
    category: Option<CategoryId>,
    description: string,
    group: Option<GroupId>)

  /** The category choices are the user's own categories; none is allowed. */
  predicate CategoryChoice(s: State, u: UserId, c: Option<CategoryId>)
  {
    c.None? || OwnsCategory(s, u, c.value)
  }

  /** The group choices are the groups the user is a member of; none means
      a personal transaction. */
  predicate GroupChoice(s: State, u: UserId, g: Option<GroupId>)
  {
    g.None? || (g.value in s.groups && IsMember(s, u, g.value))
  }

  function TypeErrors(code: string): seq<FormError>
  {
    if code == "" then [Required(TypeField)]
    else if ParseTxType(code).None? then [InvalidChoice(TypeField)]
    else []
  }

  /** Field errors in the order of the form's fields: type, amount,
      category, description (optional, so only its null-character check
      applies), group. */
  function TransactionErrors(s: State, u: UserId, input: TransactionInput): seq<FormError>
  {
    TypeErrors(input.tType)
    + (if AmountFieldAccepts(input.amount) then [] else [AmountRejected])
    + (if CategoryChoice(s, u, input.category) then [] else [InvalidChoice(CategoryField)])
    + NullCharErrors(DescriptionField, input.description)
    + (if GroupChoice(s, u, input.group) then [] else [InvalidChoice(GroupField)])
  }

  /** The transaction form for user `u`. */
  function CleanTransaction(s: State, u: UserId, input: TransactionInput): (r: Result<CleanedTransaction, seq<FormError>>)
    ensures r.Success? <==>
      && ParseTxType(input.tType).Some?
      && AmountFieldAccepts(input.amount)
      && CategoryChoice(s, u, input.category)
      && '\0' !in input.description
      && GroupChoice(s, u, input.group)
    ensures r.Success? ==>
      && TxTypeCode(r.value.tType) == input.tType
      && ValidCents(r.value.amount)
      && input.amount.exponent >= -(AmountDecimalPlaces as int)
      && r.value.amount == ToCents(input.amount)
      && r.value.category == input.category
      && r.value.description == input.description
      && r.value.group == input.group
    ensures r.Success? && r.value.category.Some? ==> OwnsCategory(s, u, r.value.category.value)
    ensures r.Success? && r.value.group.Some? ==> r.value.group.value in s.groups && IsMember(s, u, r.value.group.value)
    ensures r.Failure? ==> |r.error| > 0
    ensures r.Failure? ==>
      ((Required(TypeField) in r.error || InvalidChoice(TypeField) in r.error) <==> ParseTxType(input.tType).None?)
    ensures r.Failure? && input.tType == "" ==> Required(TypeField) in r.error
    ensures r.Failure? ==> (AmountRejected in r.error <==> !AmountFieldAccepts(input.amount))
    ensures r.Failure? ==> (InvalidChoice(CategoryField) in r.error <==> !CategoryChoice(s, u, input.category))
    ensures r.Failure? ==> (NullCharacters(DescriptionField) in r.error <==> '\0' in input.description)
    ensures r.Failure? ==> (InvalidChoice(GroupField) in r.error <==> !GroupChoice(s, u, input.group))
  {
    var errors := TransactionErrors(s, u, input);
    if errors == [] then
      AcceptedAmountFits(input.amount);
      Success(CleanedTransaction(
        ParseTxType(input.tType).value, ToCents(input.amount), input.category, input.description, input.group))
    else
      Failure(errors)
  }

  // CategoryForm

  /** The category form has the name only: required, at most 100 characters,
      no U+0000. */
  function CleanCategoryForm(name: string): (r: Result<string, seq<FormError>>)
    ensures r.Success? <==> 0 < |name| <= CategoryNameMaxLength && '\0' !in name
    ensures |name| == 0 ==> r == Failure([Required(NameField)])
    ensures 0 < |name| && r.Failure? ==>
      && (TooLong(NameField, CategoryNameMaxLength) in r.error <==> CategoryNameMaxLength < |name|)
      && (NullCharacters(NameField) in r.error <==> '\0' in name)
    ensures r.Success? ==> r.value == name
  {
    CleanCharField(NameField, name, CategoryNameMaxLength)
  }
}

=== FILE: models.dfy ===
/** The records of the finance application and the referential actions the
    database applies to them.

    `Category` and `Transaction` follow finance/models.py. `UserGroup`,
    `UserGroupMember` (here `Membership`) and `Invitation` are used by the
    views and forms but their model classes are not part of this model; their
    fields are the ones the views and forms read and write. */
module Models {
  import opened Util

  type UserId = nat
  type GroupId = nat
  type CategoryId = nat
  type TransactionId = nat
  type MembershipId = nat
  type InvitationId = nat

  // Amounts: DecimalField(max_digits=10, decimal_places=2), kept as cents

  const AmountMaxDigits: nat := 10
  const AmountDecimalPlaces: nat := 2

  /** A finite decimal as the form field hands it over: sign, coefficient and
      base-ten exponent, so `-12.50` is `Decimal(true, 1250, -2)`. */
  datatype Decimal = Decimal(negative: bool, coefficient: nat, exponent: int)

  function Pow10(n: nat): (r: nat)
    ensures r >= 1
  {
    if n == 0 then 1 else 10 * Pow10(n - 1)
  }

  /** Number of decimal digits of `n`; zero is written with one digit. */
  function DigitCount(n: nat): (d: nat)
    ensures d >= 1
  {
    if n < 10 then 1 else 1 + DigitCount(n / 10)
  }

  /** Total digits and digits after the point, counted the way the decimal
      validator counts them (leading zeros after the point are digits). */
  function DigitsAndDecimals(d: Decimal): (nat, nat)
  {
    var len := DigitCount(d.coefficient);
    if d.exponent >= 0 then
      (if d.coefficient == 0 then len else len + d.exponent, 0)
    else if -d.exponent > len then (-d.exponent, -d.exponent)
    else (len, -d.exponent)
  }

  /** The amount field accepts at most ten digits, at most two of them after
      the point, and so at most eight before it. */
  predicate AmountFieldAccepts(d: Decimal)
  {
    var (digits, decimals) := DigitsAndDecimals(d);
    && digits <= AmountMaxDigits
    && decimals <= AmountDecimalPlaces
    && digits - decimals <= AmountMaxDigits - AmountDecimalPlaces
  }

  /** The value of `d` in hundredths; exact when `d` has at most two decimals. */
  function ToCents(d: Decimal): int
    requires d.exponent >= -(AmountDecimalPlaces as int)
  {
    var magnitude := d.coefficient * Pow10(d.exponent + AmountDecimalPlaces);
    if d.negative then -magnitude else magnitude
  }

  /** The amounts a Transaction row can hold, in cents. */
  predicate ValidCents(cents: int)
  {
    var bound := Pow10(AmountMaxDigits) as int;
    -bound < cents < bound
  }

  /** `c` written with exactly two decimals, as the field stores it. */
  function FromCents(c: int): (d: Decimal)
    ensures d.exponent == -(AmountDecimalPlaces as int)
    ensures ToCents(d) == c
  {
    Decimal(c < 0, if c < 0 then -c else c, -(AmountDecimalPlaces as int))
  }

  lemma {:induction false} Pow10Add(a: nat, b: nat)
    ensures Pow10(a + b) == Pow10(a) * Pow10(b)
  {
    if a > 0 {
      Pow10Add(a - 1, b);
      assert Pow10(a + b) == 10 * Pow10(a - 1 + b);
    }
  }

  lemma {:induction false} Pow10Monotone(a: nat, b: nat)
    requires a <= b
    ensures Pow10(a) <= Pow10(b)
  {
    if a < b {
      Pow10Monotone(a, b - 1);
    }
  }

  /** `n` has at most `k` digits exactly when it is below ten to the `k`. */
  lemma {:induction false} DigitCountBound(n: nat, k: nat)
    requires k >= 1
    ensures DigitCount(n) <= k <==> n < Pow10(k)
  {
    Pow10Monotone(1, k);
    if n >= 10 && k > 1 {
      DigitCountBound(n / 10, k - 1);
      assert Pow10(k) == 10 * Pow10(k - 1);
    }
  }

  lemma MulBelow(x: nat, bound: nat, scale: nat)
    requires x < bound && scale >= 1
    ensures x * scale < bound * scale
  {
  }

  /** A coefficient of `len` digits scaled to cents stays below the column
      bound when `len + exponent + 2` digits fit. */
  lemma ScaledBelowBound(c: nat, e: int)
    requires e >= -(AmountDecimalPlaces as int)
    requires DigitCount(c) + e + AmountDecimalPlaces <= AmountMaxDigits
    ensures c * Pow10(e + AmountDecimalPlaces) < Pow10(AmountMaxDigits)
  {
    var len := DigitCount(c);
    DigitCountBound(c, len);
    var k: nat := e + AmountDecimalPlaces;
    Pow10Add(len, k);
    MulBelow(c, Pow10(len), Pow10(k));
    Pow10Monotone(len + k, AmountMaxDigits);
  }

  /** Every decimal the amount field accepts has at most two decimals and
      its value in cents fits the column. */
  lemma AcceptedAmountFits(d: Decimal)
    requires AmountFieldAccepts(d)
    ensures d.exponent >= -(AmountDecimalPlaces as int)
    ensures ValidCents(ToCents(d))
  {
    var len := DigitCount(d.coefficient);
    if d.coefficient == 0 {
      assert ToCents(d) == 0;
    } else {
      assert len + d.exponent + AmountDecimalPlaces <= AmountMaxDigits;
      ScaledBelowBound(d.coefficient, d.exponent);
    }
  }

  /** Conversely every value of the column is accepted when written with two
      decimals, so cents and accepted decimals describe the same amounts. */
  lemma CentsAccepted(c: int)
    requires ValidCents(c)
    ensures AmountFieldAccepts(FromCents(c))
  {
    var d := FromCents(c);
    DigitCountBound(d.coefficient, AmountMaxDigits);
  }

  // Category (finance/models.py:26-37)

  const CategoryNameMaxLength: nat := 100
  const CategoryIconMaxLength: nat := 30

  /** A category belongs to exactly one user (the foreign key is not
      nullable) and is marked income or not. */
  datatype Category = Category(id: CategoryId, user: UserId, name: string, icon: string, isIncome: bool)

  // Transaction (finance/models.py:41-58)

  datatype TxType = Income | Expense

  /** `t_type` is a CharField of at most seven characters. */
  const TxTypeMaxLength: nat := 7

  /** The stored value of each choice. */
  function TxTypeCode(t: TxType): string
  {
    match t
    case Income => "income"
    case Expense => "expense"
  }

  /** Choice validation: a stored value names exactly one transaction type. */
  function ParseTxType(code: string): (r: Option<TxType>)
    ensures r.Some? <==> code == "income" || code == "expense"
    ensures r.Some? ==> TxTypeCode(r.value) == code
    ensures forall t :: TxTypeCode(t) == code ==> r == Some(t)
  {
    if code == "income" then Some(Income)
    else if code == "expense" then Some(Expense)
    else None
  }

  lemma TxTypeCodeRoundTrip(t: TxType)
    ensures ParseTxType(TxTypeCode(t)) == Some(t)
    ensures 0 < |TxTypeCode(t)| <= TxTypeMaxLength
  {
  }

  /** A row of the Transaction table. `amount` is in cents. `group` is not
      declared in finance/models.py but is read and written by the views and
      the transaction form; `None` means a personal transaction. */
  datatype Transaction = Transaction(
    id: TransactionId,
    user: UserId,
    tType: TxType,
    amount: int,
    category: Option<CategoryId>,
    description: string,
    date: int,
    group: Option<GroupId>)

  // Groups, memberships and invitations (inferred from finance/views.py)

  /** Stored as "admin" and "member", so ordering by role puts admins first. */
  datatype Role = Admin | Member

  datatype Status = Pending | Accepted | Rejected

  datatype UserGroup = UserGroup(name: string)

  datatype Membership = Membership(id: MembershipId, user: UserId, group: GroupId, role: Role, joinedAt: int)

  datatype Invitation = Invitation(
    id: InvitationId,
    fromUser: UserId,
    toUser: UserId,
    group: GroupId,
    status: Status,
    createdAt: int)

  /** The whole database the core works on. Users are reduced to the
      username -> id mapping (usernames are unique); the `next…Id` counters
      are the tables' primary-key sequences. */
  datatype State = State(
    users: map<string, UserId>,
    groups: map<GroupId, UserGroup>,
    memberships: seq<Membership>,
    invitations: seq<Invitation>,
    categories: seq<Category>,
    transactions: seq<Transaction>,
    nextMembershipId: nat,
    nextInvitationId: nat,
    nextCategoryId: nat,
    nextTransactionId: nat)

  predicate IsMember(s: State, u: UserId, g: GroupId)
  {
    exists m :: m in s.memberships && m.user == u && m.group == g
  }

  predicate IsAdmin(s: State, u: UserId, g: GroupId)
  {
    exists m :: m in s.memberships && m.user == u && m.group == g && m.role == Admin
  }

  predicate HasPendingInvitation(s: State, u: UserId, g: GroupId)
  {
    exists inv :: inv in s.invitations && inv.toUser == u && inv.group == g && inv.status == Pending
  }

  predicate OwnsCategory(s: State, u: UserId, id: CategoryId)
  {
    exists c :: c in s.categories && c.id == id && c.user == u
  }

  predicate CategoryExists(s: State, id: CategoryId)
  {
    exists c :: c in s.categories && c.id == id
  }

  // Invariants

  /** Primary keys of a table are distinct and below the next value of
      its sequence, so a lookup by id finds at most one row. */
  ghost predicate MembershipKeys(ms: seq<Membership>, next: nat)
  {
    && (forall i :: 0 <= i < |ms| ==> ms[i].id < next)
    && (forall i, j :: 0 <= i < j < |ms| ==> ms[i].id != ms[j].id)
  }

  ghost predicate InvitationKeys(invs: seq<Invitation>, next: nat)
  {
    && (forall i :: 0 <= i < |invs| ==> invs[i].id < next)
    && (forall i, j :: 0 <= i < j < |invs| ==> invs[i].id != invs[j].id)
  }

  ghost predicate KeysValid(s: State)
  {
    MembershipKeys(s.memberships, s.nextMembershipId) && InvitationKeys(s.invitations, s.nextInvitationId)
  }

  /** No user holds two memberships in one group. Nothing in the schema
      enforces this; the operations keep it. */
  ghost predicate OneMembershipPerPair(ms: seq<Membership>)
  {
    forall i, j :: 0 <= i < j < |ms| ==> ms[i].user != ms[j].user || ms[i].group != ms[j].group
  }

  /** At most one pending invitation per (invitee, group). */
  ghost predicate OnePendingPerPair(invs: seq<Invitation>)
  {
    forall i, j :: 0 <= i < j < |invs| && invs[i].status == Pending && invs[j].status == Pending ==>
      invs[i].toUser != invs[j].toUser || invs[i].group != invs[j].group
  }

  /** Nobody has a pending invitation to a group they already belong to. */
  ghost predicate NoPendingForMembers(invs: seq<Invitation>, ms: seq<Membership>)
  {
    forall inv, m :: inv in invs && m in ms && inv.status == Pending ==>
      inv.toUser != m.user || inv.group != m.group
  }

  /** The membership and invitation tables together. */
  ghost predicate GroupTablesValid(s: State)
  {
    && KeysValid(s)
    && OneMembershipPerPair(s.memberships)
    && OnePendingPerPair(s.invitations)
    && NoPendingForMembers(s.invitations, s.memberships)
  }

  /** Stored records respect their column domains. */
  ghost predicate ColumnsValid(s: State)
  {
    && (forall c :: c in s.categories ==> |c.name| <= CategoryNameMaxLength && |c.icon| <= CategoryIconMaxLength)
    && (forall t :: t in s.transactions ==> ValidCents(t.amount))
  }

  /** Every category a transaction points to exists. */
  ghost predicate CategoryRefsResolve(s: State)
  {
    forall t :: t in s.transactions && t.category.Some? ==> CategoryExists(s, t.category.value)
  }

  ghost predicate Valid(s: State)
  {
    && GroupTablesValid(s)
    && ColumnsValid(s)
    && CategoryRefsResolve(s)
  }

  // Referential actions

  /** `t` with its category cleared when that category is among `dead`. */
  function Detach(t: Transaction, dead: set<CategoryId>): (r: Transaction)
    ensures r.(category := t.category) == t
    ensures r.category.Some? ==> r.category == t.category && r.category.value !in dead
    ensures t.category.Some? && t.category.value !in dead ==> r == t
  {
    if t.category.Some? && t.category.value in dead then t.(category := None) else t
  }

  /** Deleting a category: the category goes, and every transaction that
      pointed to it stays with its category set to null (SET_NULL). */
  function DeleteCategory(s: State, id: CategoryId): (r: State)
    ensures forall c :: c in r.categories <==> c in s.categories && c.id != id
    ensures forall c :: multiset(r.categories)[c] == if c.id != id then multiset(s.categories)[c] else 0
    ensures |r.transactions| == |s.transactions|
    ensures forall i :: 0 <= i < |s.transactions| ==>
      && r.transactions[i].category != Some(id)
      && r.transactions[i].(category := s.transactions[i].category) == s.transactions[i]
      && r.transactions[i].category == (if s.transactions[i].category == Some(id) then None else s.transactions[i].category)
    ensures r.(categories := s.categories, transactions := s.transactions) == s
  {
    s.(categories := Filter(s.categories, (c: Category) => c.id != id),
       transactions := seq(|s.transactions|, i requires 0 <= i < |s.transactions| => Detach(s.transactions[i], {id})))
  }

  /** Ids of the categories owned by `u`. */
  function CategoryIdsOf(s: State, u: UserId): set<CategoryId>
  {
    set c | c in s.categories && c.user == u :: c.id
  }

  /** The rows a deletion of user `u` does not cascade to. */
  function NotOwnedBy(u: UserId): Transaction -> bool
  {
    (t: Transaction) => t.user != u
  }

  /** The transactions of `ts` not owned by `u`, in order, each detached
      from the categories in `dead`. */
  function KeepOthers(ts: seq<Transaction>, u: UserId, dead: set<CategoryId>): (r: seq<Transaction>)
    ensures |r| == |Filter(ts, NotOwnedBy(u))|
    ensures forall i :: 0 <= i < |r| ==> r[i] == Detach(Filter(ts, NotOwnedBy(u))[i], dead)
  {
    if |ts| == 0 then []
    else
      var rest := KeepOthers(ts[1..], u, dead);
      var kept := Filter(ts[1..], NotOwnedBy(u));
      if ts[0].user != u then
        assert Filter(ts, NotOwnedBy(u)) == [ts[0]] + kept;
        [Detach(ts[0], dead)] + rest
      else
        assert Filter(ts, NotOwnedBy(u)) == kept;
        rest
  }

  /** The survivors of `KeepOthers` as a set: each is a detached row of
      another user, and every such row survives. */
  lemma KeepOthersMembers(ts: seq<Transaction>, u: UserId, dead: set<CategoryId>)
    ensures forall t :: t in KeepOthers(ts, u, dead) ==> exists o :: o in ts && o.user != u && t == Detach(o, dead)
    ensures forall o :: o in ts && o.user != u ==> Detach(o, dead) in KeepOthers(ts, u, dead)
  {
    var r := KeepOthers(ts, u, dead);
    var kept := Filter(ts, NotOwnedBy(u));
    forall t | t in r
      ensures exists o :: o in ts && o.user != u && t == Detach(o, dead)
    {
      var i :| 0 <= i < |r| && r[i] == t;
      assert kept[i] in kept;
    }
    forall o | o in ts && o.user != u
      ensures Detach(o, dead) in r
    {
      assert NotOwnedBy(u)(o);
      assert o in kept;
      var i :| 0 <= i < |kept| && kept[i] == o;
      assert r[i] == Detach(o, dead);
    }
  }

  /** Deleting a user: the user row goes, so its username no longer
      resolves; their transactions and categories are deleted (CASCADE), and
      other users' transactions that pointed to one of those categories
      survive with the category cleared. */
  function DeleteUser(s: State, u: UserId): (r: State)
    ensures forall name :: name in r.users <==> name in s.users && s.users[name] != u
    ensures forall name :: name in r.users ==> r.users[name] == s.users[name]
    ensures forall c :: c in r.categories <==> c in s.categories && c.user != u
    ensures forall c :: multiset(r.categories)[c] == if c.user != u then multiset(s.categories)[c] else 0
    ensures forall t :: t in r.transactions ==>
      exists o :: o in s.transactions && o.user != u && t == Detach(o, CategoryIdsOf(s, u))
    ensures forall o :: o in s.transactions && o.user != u ==> Detach(o, CategoryIdsOf(s, u)) in r.transactions
    ensures |r.transactions| == |Filter(s.transactions, NotOwnedBy(u))|
    ensures forall i :: 0 <= i < |r.transactions| ==>
      r.transactions[i] == Detach(Filter(s.transactions, NotOwnedBy(u))[i], CategoryIdsOf(s, u))
    ensures r.(users := s.users, categories := s.categories, transactions := s.transactions) == s
  {
    s.(users := map name | name in s.users && s.users[name] != u :: s.users[name],
       categories := Filter(s.categories, (c: Category) => c.user != u),
       transactions := (KeepOthersMembers(s.transactions, u, CategoryIdsOf(s, u));
                        KeepOthers(s.transactions, u, CategoryIdsOf(s, u))))
  }
}

=== FILE: properties.dfy ===
/** Properties that relate several operations of the model: the database
    invariants every handler keeps, the invitation state machine, the guard
    order of member removal and the income total. */
module Properties {
  import opened Util
  import opened Sorting
  import opened Models
  import opened Forms
  import opened Views

  // Table-level steps behind the handlers

  /** Appending a membership with a fresh id for a pair that has none. */
  lemma AppendMembershipKeepsTable(ms: seq<Membership>, m: Membership, next: nat)
    requires MembershipKeys(ms, next) && OneMembershipPerPair(ms)
    requires m.id == next
    requires forall x :: x in ms ==> x.user != m.user || x.group != m.group
    ensures MembershipKeys(ms + [m], next + 1) && OneMembershipPerPair(ms + [m])
  {
    var ms' := ms + [m];
    forall a, b | 0 <= a < b < |ms'|
      ensures ms'[a].user != ms'[b].user || ms'[a].group != ms'[b].group
    {
      if b == |ms| {
        assert ms'[a] == ms[a] && ms[a] in ms;
      }
    }
  }

  /** Moving one invitation out of `Pending` keeps the invitation table's
      invariants. */
  lemma ProcessKeepsInvitationTable(invs: seq<Invitation>, i: nat, st: Status, next: nat)
    requires i < |invs| && st != Pending
    requires InvitationKeys(invs, next) && OnePendingPerPair(invs)
    ensures InvitationKeys(invs[i := invs[i].(status := st)], next)
    ensures OnePendingPerPair(invs[i := invs[i].(status := st)])
  {
    var invs' := invs[i := invs[i].(status := st)];
    assert forall a :: 0 <= a < |invs'| ==> invs'[a].id == invs[a].id;
    forall a, b | 0 <= a < b < |invs'| && invs'[a].status == Pending && invs'[b].status == Pending
      ensures invs'[a].toUser != invs'[b].toUser || invs'[a].group != invs'[b].group
    {
      assert a != i && b != i;
    }
  }

  /** Accepting invitation `i` and adding its membership `m` leaves no
      pending invitation for a member, because `i` was the only pending one
      for that pair. */
  lemma AcceptKeepsNoPendingForMembers(invs: seq<Invitation>, ms: seq<Membership>, i: nat, m: Membership)
    requires i < |invs| && invs[i].status == Pending
    requires m.user == invs[i].toUser && m.group == invs[i].group
    requires OnePendingPerPair(invs) && NoPendingForMembers(invs, ms)
    ensures NoPendingForMembers(invs[i := invs[i].(status := Accepted)], ms + [m])
  {
    var invs' := invs[i := invs[i].(status := Accepted)];
    forall x, y | x in invs' && y in ms + [m] && x.status == Pending
      ensures x.toUser != y.user || x.group != y.group
    {
      var k :| 0 <= k < |invs'| && invs'[k] == x;
      assert k != i && x == invs[k] && x in invs;
      // `i` was the only pending invitation for its pair.
      assert x.toUser != invs[i].toUser || x.group != invs[i].group;
    }
  }

  /** Rejecting invitation `i` cannot create a pending invitation. */
  lemma RejectKeepsNoPendingForMembers(invs: seq<Invitation>, ms: seq<Membership>, i: nat)
    requires i < |invs|
    requires NoPendingForMembers(invs, ms)
    ensures NoPendingForMembers(invs[i := invs[i].(status := Rejected)], ms)
  {
    var invs' := invs[i := invs[i].(status := Rejected)];
    forall x, y | x in invs' && y in ms && x.status == Pending
      ensures x.toUser != y.user || x.group != y.group
    {
      var k :| 0 <= k < |invs'| && invs'[k] == x;
      assert k != i && x == invs[k] && x in invs;
    }
  }

  /** Deleting row `i` keeps the membership table's invariants. */
  lemma RemoveKeepsMembershipTable(ms: seq<Membership>, i: nat, next: nat, invs: seq<Invitation>)
    requires i < |ms|
    requires MembershipKeys(ms, next) && OneMembershipPerPair(ms) && NoPendingForMembers(invs, ms)
    ensures MembershipKeys(RemoveAt(ms, i), next)
    ensures OneMembershipPerPair(RemoveAt(ms, i))
    ensures NoPendingForMembers(invs, RemoveAt(ms, i))
  {
    var r := RemoveAt(ms, i);
    forall a, b | 0 <= a < b < |r|
      ensures r[a].id != r[b].id
    {
      RemoveAtKeepsOrder(ms, i, a, b);
    }
    forall a, b | 0 <= a < b < |r|
      ensures r[a].user != r[b].user || r[a].group != r[b].group
    {
      RemoveAtKeepsOrder(ms, i, a, b);
    }
    forall m | m in r
      ensures m in ms
    {
      assert m in multiset(r);
    }
  }

  /** Two rows left after deleting row `i` came from two rows of `ms`, in
      the same order. */
  lemma RemoveAtKeepsOrder<T>(ms: seq<T>, i: nat, a: nat, b: nat)
    requires i < |ms| && a < b < |ms| - 1
    ensures exists a', b' :: 0 <= a' < b' < |ms| && RemoveAt(ms, i)[a] == ms[a'] && RemoveAt(ms, i)[b] == ms[b']
  {
    var a' := if a < i then a else a + 1;
    var b' := if b < i then b else b + 1;
    assert RemoveAt(ms, i)[a] == ms[a'] && RemoveAt(ms, i)[b] == ms[b'];
  }

  /** With distinct ids, deleting row `i` deletes exactly the rows carrying
      its id. */
  lemma RemoveLeavesOtherIds(ms: seq<Membership>, i: nat, next: nat)
    requires i < |ms| && MembershipKeys(ms, next)
    ensures forall m :: m in RemoveAt(ms, i) <==> m in ms && m.id != ms[i].id
  {
    var r := RemoveAt(ms, i);
    forall m | m in r
      ensures m in ms && m.id != ms[i].id
    {
      RemoveAtFrom(ms, i, m);
    }
    forall m | m in ms && m.id != ms[i].id
      ensures m in r
    {
      var a :| 0 <= a < |ms| && ms[a] == m;
      RemoveAtKeeps(ms, i, a);
    }
  }

  /** With one row per pair, the pair of the deleted row has no row left. */
  lemma RemovedPairGone(ms: seq<Membership>, i: nat)
    requires i < |ms| && OneMembershipPerPair(ms)
    ensures forall m :: m in RemoveAt(ms, i) ==> m.user != ms[i].user || m.group != ms[i].group
  {
    forall m | m in RemoveAt(ms, i)
      ensures m.user != ms[i].user || m.group != ms[i].group
    {
      RemoveAtFrom(ms, i, m);
    }
  }

  /** With distinct ids, once invitation `i` is processed no pending
      invitation carries its id. */
  lemma ProcessedIdLeavesPending(invs: seq<Invitation>, i: nat, st: Status, next: nat)
    requires i < |invs| && st != Pending && InvitationKeys(invs, next)
    ensures forall x :: x in invs[i := invs[i].(status := st)] && x.status == Pending ==> x.id != invs[i].id
  {
    var invs' := invs[i := invs[i].(status := st)];
    forall x | x in invs' && x.status == Pending
      ensures x.id != invs[i].id
    {
      var k :| 0 <= k < |invs'| && invs'[k] == x;
      assert k != i && x == invs[k];
    }
  }

  // Every handler keeps the invariants

  lemma InvitePreservesValid(s: State, actor: UserId, g: GroupId, username: string, now: int)
    requires Valid(s)
    ensures Valid(Invite(s, actor, g, username, now).state)
  {
    var r := Invite(s, actor, g, username, now);
    if r.outcome == Ok {
      var s' := r.state;
      var n := |s.invitations|;
      var added := Invitation(s.nextInvitationId, actor, s.users[username], g, Pending, now);
      assert s'.invitations == s.invitations + [added];
      forall i, j | 0 <= i < j < |s'.invitations| && s'.invitations[i].status == Pending && s'.invitations[j].status == Pending
        ensures s'.invitations[i].toUser != s'.invitations[j].toUser || s'.invitations[i].group != s'.invitations[j].group
      {
        if j == n {
          assert s'.invitations[i] == s.invitations[i] && s.invitations[i] in s.invitations;
        }
      }
      forall inv, m | inv in s'.invitations && m in s'.memberships && inv.status == Pending
        ensures inv.toUser != m.user || inv.group != m.group
      {
        if inv == added {
          assert m in s.memberships;
        }
      }
    }
  }

  lemma AcceptPreservesValid(s: State, u: UserId, id: InvitationId, now: int)
    requires Valid(s)
    ensures Valid(Accept(s, u, id, now).state)
  {
    var r := Accept(s, u, id, now);
    if r.outcome == Ok {
      var i :| 0 <= i < |s.invitations| && s.invitations[i].id == id && s.invitations[i].toUser == u
        && s.invitations[i].status == Pending
        && r.state == s.(
             invitations := s.invitations[i := s.invitations[i].(status := Accepted)],
             memberships := s.memberships + [Membership(s.nextMembershipId, u, s.invitations[i].group, Member, now)],
             nextMembershipId := s.nextMembershipId + 1);
      var inv := s.invitations[i];
      var joined := Membership(s.nextMembershipId, u, inv.group, Member, now);
      assert inv in s.invitations;
      AppendMembershipKeepsTable(s.memberships, joined, s.nextMembershipId);
      ProcessKeepsInvitationTable(s.invitations, i, Accepted, s.nextInvitationId);
      AcceptKeepsNoPendingForMembers(s.invitations, s.memberships, i, joined);
    }
  }

  lemma RejectPreservesValid(s: State, u: UserId, id: InvitationId)
    requires Valid(s)
    ensures Valid(Reject(s, u, id).state)
  {
    var r := Reject(s, u, id);
    if r.outcome == Ok {
      var i :| 0 <= i < |s.invitations| && s.invitations[i].id == id && s.invitations[i].toUser == u
        && s.invitations[i].status == Pending
        && r.state == s.(invitations := s.invitations[i := s.invitations[i].(status := Rejected)]);
      ProcessKeepsInvitationTable(s.invitations, i, Rejected, s.nextInvitationId);
      RejectKeepsNoPendingForMembers(s.invitations, s.memberships, i);
    }
  }

  lemma RemoveMemberPreservesValid(s: State, actor: UserId, g: GroupId, memberId: MembershipId)
    requires Valid(s)
    ensures Valid(RemoveMember(s, actor, g, memberId).state)
  {
    var r := RemoveMember(s, actor, g, memberId);
    if r.outcome == Ok {
      var i :| 0 <= i < |s.memberships| && s.memberships[i].id == memberId && s.memberships[i].group == g
        && s.memberships[i].role == Member && s.memberships[i].user != actor
        && r.state == s.(memberships := RemoveAt(s.memberships, i));
      RemoveKeepsMembershipTable(s.memberships, i, s.nextMembershipId, s.invitations);
    }
  }

  lemma AddTransactionPreservesValid(s: State, u: UserId, input: TransactionInput, now: int)
    requires Valid(s)
    ensures Valid(AddTransaction(s, u, input, now).state)
  {
    var r := AddTransaction(s, u, input, now);
    if r.outcome == Ok {
      var t := r.state.transactions[|s.transactions|];
      assert r.state.transactions == s.transactions + [t];
    }
  }

  lemma AddCategoryPreservesValid(s: State, u: UserId, name: string)
    requires Valid(s)
    ensures Valid(AddCategory(s, u, name).state)
  {
    var r := AddCategory(s, u, name);
    if r.outcome == Ok {
      var c := Category(s.nextCategoryId, u, name, "", false);
      assert r.state.categories == s.categories + [c];
      forall t | t in r.state.transactions && t.category.Some?
        ensures CategoryExists(r.state, t.category.value)
      {
        var c0 :| c0 in s.categories && c0.id == t.category.value;
        assert c0 in r.state.categories;
      }
    }
  }

  /** Deleting a category leaves no transaction pointing to a missing one. */
  lemma DeleteCategoryPreservesValid(s: State, id: CategoryId)
    requires Valid(s)
    ensures Valid(DeleteCategory(s, id))
  {
    var r := DeleteCategory(s, id);
    forall t | t in r.transactions
      ensures ValidCents(t.amount)
      ensures t.category.Some? ==> CategoryExists(r, t.category.value)
    {
      var i :| 0 <= i < |r.transactions| && r.transactions[i] == t;
      var o := s.transactions[i];
      assert o in s.transactions;
      assert t.amount == o.amount;
      if t.category.Some? {
        var c :| c in s.categories && c.id == t.category.value;
        assert c in r.categories;
      }
    }
  }

  /** Deleting a user leaves no transaction pointing to a deleted category. */
  lemma DeleteUserPreservesValid(s: State, u: UserId)
    requires Valid(s)
    ensures Valid(DeleteUser(s, u))
  {
    var r := DeleteUser(s, u);
    var dead := CategoryIdsOf(s, u);
    forall t | t in r.transactions
      ensures ValidCents(t.amount)
      ensures t.category.Some? ==> CategoryExists(r, t.category.value)
    {
      var o :| o in s.transactions && o.user != u && t == Detach(o, dead);
      if t.category.Some? {
        var c :| c in s.categories && c.id == t.category.value;
        assert c.id !in dead;
        assert c.user == u ==> c.id in dead;
        assert c in r.categories;
      }
    }
  }

  /** A deleted user can no longer be invited: the username does not
      resolve, so the form reports an unknown user. */
  lemma DeletedUserNotInvitable(s: State, u: UserId, actor: UserId, g: GroupId, username: string, now: int)
    requires g in s.groups && IsAdmin(s, actor, g)
    requires 0 < |username| <= UsernameMaxLength && '\0' !in username && username in s.users && s.users[username] == u
    ensures var r := DeleteUser(s, u);
      Invite(r, actor, g, username, now) == Step(ValidationError([UnknownUser]), r)
  {
    var r := DeleteUser(s, u);
    assert username !in r.users;
    assert IsAdmin(r, actor, g);
  }

  // Invitations

  /** Invitation rows keep their place and identity, and a row that is not
      pending never changes again. */
  ghost predicate InvitationsAdvance(before: seq<Invitation>, after: seq<Invitation>)
  {
    && |before| <= |after|
    && forall i :: 0 <= i < |before| ==>
         && after[i].(status := before[i].status) == before[i]
         && (before[i].status != Pending ==> after[i] == before[i])
  }

  lemma InviteAdvancesInvitations(s: State, actor: UserId, g: GroupId, username: string, now: int)
    ensures InvitationsAdvance(s.invitations, Invite(s, actor, g, username, now).state.invitations)
  {
    var r := Invite(s, actor, g, username, now);
    if r.outcome == Ok {
      assert forall i :: 0 <= i < |s.invitations| ==> r.state.invitations[i] == s.invitations[i];
    }
  }

  lemma AcceptAdvancesInvitations(s: State, u: UserId, id: InvitationId, now: int)
    ensures InvitationsAdvance(s.invitations, Accept(s, u, id, now).state.invitations)
  {
    var r := Accept(s, u, id, now);
    if r.outcome == Ok {
      var i :| 0 <= i < |s.invitations| && s.invitations[i].id == id && s.invitations[i].toUser == u
        && s.invitations[i].status == Pending
        && r.state.invitations == s.invitations[i := s.invitations[i].(status := Accepted)];
    }
  }

  lemma RejectAdvancesInvitations(s: State, u: UserId, id: InvitationId)
    ensures InvitationsAdvance(s.invitations, Reject(s, u, id).state.invitations)
  {
    var r := Reject(s, u, id);
    if r.outcome == Ok {
      var i :| 0 <= i < |s.invitations| && s.invitations[i].id == id && s.invitations[i].toUser == u
        && s.invitations[i].status == Pending
        && r.state.invitations == s.invitations[i := s.invitations[i].(status := Rejected)];
    }
  }

  /** Accepted and rejected are terminal for every handler. */
  lemma HandlersAdvanceInvitations(s: State, actor: UserId, g: GroupId, username: string,
                                   id: InvitationId, memberId: MembershipId, now: int)
    ensures InvitationsAdvance(s.invitations, Invite(s, actor, g, username, now).state.invitations)
    ensures InvitationsAdvance(s.invitations, Accept(s, actor, id, now).state.invitations)
    ensures InvitationsAdvance(s.invitations, Reject(s, actor, id).state.invitations)
    ensures InvitationsAdvance(s.invitations, RemoveMember(s, actor, g, memberId).state.invitations)
  {
    InviteAdvancesInvitations(s, actor, g, username, now);
    AcceptAdvancesInvitations(s, actor, id, now);
    RejectAdvancesInvitations(s, actor, id);
  }

  /** Inviting the same user to the same group again is refused while the
      first invitation is pending. */
  lemma InviteTwiceRefused(s: State, actor: UserId, g: GroupId, username: string, now: int, later: int)
    requires Invite(s, actor, g, username, now).outcome == Ok
    ensures var s' := Invite(s, actor, g, username, now).state;
      Invite(s', actor, g, username, later) == Step(ValidationError([InvitationAlreadySent]), s')
  {
    var s' := Invite(s, actor, g, username, now).state;
    var to := s.users[username];
    var inv := s'.invitations[|s.invitations|];
    assert inv in s'.invitations;
    assert HasPendingInvitation(s', to, g);
    assert IsAdmin(s', actor, g);
    assert !IsMember(s', to, g);
  }

  /** A successful invitation shows up in the invitee's pending list. */
  lemma InviteListedAsPending(s: State, actor: UserId, g: GroupId, username: string, now: int)
    requires Invite(s, actor, g, username, now).outcome == Ok
    ensures var s' := Invite(s, actor, g, username, now).state;
      Invitation(s.nextInvitationId, actor, s.users[username], g, Pending, now) in PendingInvitations(s', s.users[username])
  {
    var s' := Invite(s, actor, g, username, now).state;
    assert s'.invitations[|s.invitations|] in s'.invitations;
  }

  /** With distinct ids, a processed invitation addressed to `u` can be
      neither accepted nor rejected, and nothing changes. */
  lemma ProcessedInvitationIsFinal(s: State, u: UserId, i: nat, now: int)
    requires KeysValid(s)
    requires i < |s.invitations| && s.invitations[i].toUser == u && s.invitations[i].status != Pending
    ensures Accept(s, u, s.invitations[i].id, now) == Step(AlreadyProcessed, s)
    ensures Reject(s, u, s.invitations[i].id) == Step(AlreadyProcessed, s)
  {
    var invs := s.invitations;
    var id := invs[i].id;
    assert forall k :: 0 <= k < |invs| && invs[k].id == id ==> k == i by {
      forall k | 0 <= k < |invs| && invs[k].id == id
        ensures k == i
      {
        assert !(k < i) && !(i < k);
      }
    }
    assert Accept(s, u, id, now).outcome != NotFound;
    assert Reject(s, u, id).outcome != NotFound;
  }

  /** After an accepted invitation: the invitee is a member of the group,
      exactly one membership was added, the invitation has left the pending
      list, and a second accept or reject is refused without effect. */
  lemma AcceptOnce(s: State, u: UserId, id: InvitationId, now: int, later: int)
    requires Valid(s)
    requires Accept(s, u, id, now).outcome == Ok
    ensures var s' := Accept(s, u, id, now).state;
      && |s'.memberships| == |s.memberships| + 1
      && (exists i :: 0 <= i < |s.invitations| && s.invitations[i].id == id && IsMember(s', u, s.invitations[i].group))
      && (forall x :: x in PendingInvitations(s', u) ==> x.id != id)
      && Accept(s', u, id, later) == Step(AlreadyProcessed, s')
      && Reject(s', u, id) == Step(AlreadyProcessed, s')
  {
    var s' := Accept(s, u, id, now).state;
    var i :| 0 <= i < |s.invitations| && s.invitations[i].id == id && s.invitations[i].toUser == u
      && s.invitations[i].status == Pending
      && s' == s.(
           invitations := s.invitations[i := s.invitations[i].(status := Accepted)],
           memberships := s.memberships + [Membership(s.nextMembershipId, u, s.invitations[i].group, Member, now)],
           nextMembershipId := s.nextMembershipId + 1);
    AcceptPreservesValid(s, u, id, now);
    var joined := Membership(s.nextMembershipId, u, s.invitations[i].group, Member, now);
    assert joined in s'.memberships;
    assert IsMember(s', u, s.invitations[i].group);
    ProcessedIdLeavesPending(s.invitations, i, Accepted, s.nextInvitationId);
    ProcessedInvitationIsFinal(s', u, i, later);
  }

  /** After a rejected invitation: memberships are untouched and a second
      accept or reject is refused without effect. */
  lemma RejectOnce(s: State, u: UserId, id: InvitationId, later: int)
    requires Valid(s)
    requires Reject(s, u, id).outcome == Ok
    ensures var s' := Reject(s, u, id).state;
      && s'.memberships == s.memberships
      && Accept(s', u, id, later) == Step(AlreadyProcessed, s')
      && Reject(s', u, id) == Step(AlreadyProcessed, s')
  {
    var s' := Reject(s, u, id).state;
    var i :| 0 <= i < |s.invitations| && s.invitations[i].id == id && s.invitations[i].toUser == u
      && s.invitations[i].status == Pending
      && s' == s.(invitations := s.invitations[i := s.invitations[i].(status := Rejected)]);
    RejectPreservesValid(s, u, id);
    ProcessedInvitationIsFinal(s', u, i, later);
  }

  // Member removal

  /** With distinct ids, a successful removal deletes exactly the row with
      the given id. */
  lemma RemoveMemberDeletesOneRow(s: State, actor: UserId, g: GroupId, memberId: MembershipId)
    requires MembershipKeys(s.memberships, s.nextMembershipId)
    requires RemoveMember(s, actor, g, memberId).outcome == Ok
    ensures var s' := RemoveMember(s, actor, g, memberId).state;
      && |s'.memberships| == |s.memberships| - 1
      && (forall m :: m in s'.memberships <==> m in s.memberships && m.id != memberId)
  {
    var s' := RemoveMember(s, actor, g, memberId).state;
    var ms := s.memberships;
    var i :| 0 <= i < |ms| && ms[i].id == memberId && ms[i].group == g
      && ms[i].role == Member && ms[i].user != actor
      && s' == s.(memberships := RemoveAt(ms, i));
    RemoveLeavesOtherIds(ms, i, s.nextMembershipId);
  }

  /** With distinct ids, an admin removing another user's member-role row
      of the group succeeds and deletes exactly that row. */
  lemma RemoveMemberSucceeds(s: State, actor: UserId, g: GroupId, i: nat)
    requires KeysValid(s)
    requires g in s.groups && IsAdmin(s, actor, g)
    requires i < |s.memberships| && s.memberships[i].group == g
    requires s.memberships[i].role == Member && s.memberships[i].user != actor
    ensures RemoveMember(s, actor, g, s.memberships[i].id) == Step(Ok, s.(memberships := RemoveAt(s.memberships, i)))
  {
    RowFoundById(s.memberships, i, s.nextMembershipId);
  }

  /** With distinct ids, targeting an admin row of the group is refused and
      changes nothing. */
  lemma RemoveMemberRefusesAdmin(s: State, actor: UserId, g: GroupId, i: nat)
    requires KeysValid(s)
    requires g in s.groups && IsAdmin(s, actor, g)
    requires i < |s.memberships| && s.memberships[i].group == g && s.memberships[i].role == Admin
    ensures RemoveMember(s, actor, g, s.memberships[i].id) == Step(CannotRemoveAdmin, s)
  {
    RowFoundById(s.memberships, i, s.nextMembershipId);
  }

  /** With distinct ids, the lookup of a row by its id and group finds it. */
  lemma RowFoundById(ms: seq<Membership>, i: nat, next: nat)
    requires i < |ms| && MembershipKeys(ms, next)
    ensures FindFirst(ms, RowOfGroup(ms[i].id, ms[i].group)) == Some(i)
  {
    var found := FindFirst(ms, RowOfGroup(ms[i].id, ms[i].group));
    assert found.Some?;
    assert !(found.value < i) && !(i < found.value);
  }

  /** The "cannot remove yourself" refusal needs an admin who also holds a
      second, member-role row in the same group: once memberships are unique
      per (user, group) the guard is never reached. */
  lemma SelfRemovalRefusalUnreachable(s: State, actor: UserId, g: GroupId, memberId: MembershipId)
    requires OneMembershipPerPair(s.memberships)
    ensures RemoveMember(s, actor, g, memberId).outcome != CannotRemoveSelf
  {
    var ms := s.memberships;
    // `actor` has at most one row in `g`.
    assert forall a, b :: (0 <= a < |ms| && 0 <= b < |ms| && ms[a].user == actor && ms[a].group == g
      && ms[b].user == actor && ms[b].group == g) ==> a == b by {
      forall a, b | 0 <= a < |ms| && 0 <= b < |ms| && ms[a].user == actor && ms[a].group == g
        && ms[b].user == actor && ms[b].group == g
        ensures a == b
      {
        assert !(a < b) && !(b < a);
      }
    }
    forall m, m' | m in ms && m' in ms && m.user == actor && m.group == g && m'.user == actor && m'.group == g
      ensures m == m'
    {
      var a :| 0 <= a < |ms| && ms[a] == m;
      var b :| 0 <= b < |ms| && ms[b] == m';
    }
  }

  /** Without that uniqueness the refusal is reachable: an admin with a
      second, member-role row in the group who targets that row. */
  lemma SelfRemovalRefusalWitness()
    ensures var s := State(map[], map[1 := UserGroup("Trip")],
                           [Membership(1, 7, 1, Admin, 0), Membership(2, 7, 1, Member, 1)],
                           [], [], [], 3, 0, 0, 0);
      RemoveMember(s, 7, 1, 2).outcome == CannotRemoveSelf
  {
    var s := State(map[], map[1 := UserGroup("Trip")],
                   [Membership(1, 7, 1, Admin, 0), Membership(2, 7, 1, Member, 1)],
                   [], [], [], 3, 0, 0, 0);
    assert s.memberships[0] in s.memberships;
    assert IsAdmin(s, 7, 1);
    assert FindFirst(s.memberships, RowOfGroup(2, 1)) == Some(1);
  }

  /** A member removed by an admin can be invited again by that admin: the
      removal succeeds, and the earlier, accepted invitation does not block a
      new one. */
  lemma ReinviteAfterRemoval(s: State, actor: UserId, g: GroupId, i: nat, username: string, now: int)
    requires Valid(s)
    requires g in s.groups && IsAdmin(s, actor, g)
    requires i < |s.memberships| && s.memberships[i].group == g && s.memberships[i].role == Member
    requires 0 < |username| <= UsernameMaxLength && '\0' !in username && username in s.users
    requires s.memberships[i].user == s.users[username] && s.users[username] != actor
    ensures RemoveMember(s, actor, g, s.memberships[i].id).outcome == Ok
    ensures Invite(RemoveMember(s, actor, g, s.memberships[i].id).state, actor, g, username, now).outcome == Ok
  {
    var ms := s.memberships;
    var v := s.users[username];
    var adm :| adm in ms && adm.user == actor && adm.group == g && adm.role == Admin;
    assert IsMember(s, actor, g);
    RemoveMemberSucceeds(s, actor, g, i);
    var s' := RemoveMember(s, actor, g, ms[i].id).state;
    RemovalReopensInvitation(ms, i, s.invitations, actor);
    assert IsAdmin(s', actor, g);
    assert !IsMember(s', v, g);
    assert !HasPendingInvitation(s', v, g);
    InviteSucceeds(s', actor, g, username, now);
  }

  /** After deleting row `i` the actor's admin row is still there, and the
      deleted row's user has neither a row nor a pending invitation in its
      group. */
  lemma RemovalReopensInvitation(ms: seq<Membership>, i: nat, invs: seq<Invitation>, actor: UserId)
    requires i < |ms| && OneMembershipPerPair(ms) && NoPendingForMembers(invs, ms)
    requires ms[i].user != actor
    requires exists adm :: adm in ms && adm.user == actor && adm.group == ms[i].group && adm.role == Admin
    ensures exists adm :: adm in RemoveAt(ms, i) && adm.user == actor && adm.group == ms[i].group && adm.role == Admin
    ensures forall m :: m in RemoveAt(ms, i) ==> m.user != ms[i].user || m.group != ms[i].group
    ensures forall inv :: inv in invs && inv.status == Pending ==> inv.toUser != ms[i].user || inv.group != ms[i].group
  {
    RemovedPairGone(ms, i);
    var adm :| adm in ms && adm.user == actor && adm.group == ms[i].group && adm.role == Admin;
    assert adm in multiset(ms) && adm != ms[i];
    assert adm in multiset(RemoveAt(ms, i));
    assert ms[i] in ms;
  }

  /** The conditions under which an invitation is sent. */
  lemma InviteSucceeds(s: State, actor: UserId, g: GroupId, username: string, now: int)
    requires g in s.groups && IsAdmin(s, actor, g)
    requires 0 < |username| <= UsernameMaxLength && '\0' !in username && username in s.users
    requires !IsMember(s, s.users[username], g) && !HasPendingInvitation(s, s.users[username], g)
    ensures Invite(s, actor, g, username, now).outcome == Ok
  {
    assert CleanInvitationForm(s, g, username).Success?;
  }

  // Income total

  /** The income total is the sum of the user's income amounts taken in
      table order, so the display order does not affect it. */
  lemma IncomeTotalIsTableSum(s: State, u: UserId)
    ensures IncomeList(s, u).total == SumOf(Filter(s.transactions, IncomeOf(u)), Amount)
  {
    var page := IncomeList(s, u);
    var table := Filter(s.transactions, IncomeOf(u));
    assert multiset(page.incomes) == multiset(table);
    SumOfPermutation(page.incomes, table, Amount);
  }

  /** A user without income transactions has a total of zero. */
  lemma NoIncomeZeroTotal(s: State, u: UserId)
    requires forall t :: t in s.transactions ==> !(t.user == u && t.tType == Income)
    ensures IncomeList(s, u).total == 0
  {
    var page := IncomeList(s, u);
    forall t
      ensures multiset(page.incomes)[t] == 0
    {
      if t.user == u && t.tType == Income {
        assert t !in s.transactions;
      }
    }
    assert multiset(page.incomes) == multiset{};
  }

  /** Adding a transaction raises the owner's income total by its amount
      when it is an income, and changes no other total. */
  lemma AddTransactionIncomeTotal(s: State, u: UserId, input: TransactionInput, now: int, v: UserId)
    requires AddTransaction(s, u, input, now).outcome == Ok
    ensures var s' := AddTransaction(s, u, input, now).state;
      IncomeList(s', v).total ==
        IncomeList(s, v).total + (if v == u && input.tType == "income" then ToCents(input.amount) else 0)
  {
    var s' := AddTransaction(s, u, input, now).state;
    var t := s'.transactions[|s.transactions|];
    assert s'.transactions == s.transactions + [t];
    IncomeTotalIsTableSum(s, v);
    IncomeTotalIsTableSum(s', v);
    FilterAppend(s.transactions, [t], IncomeOf(v));
    SumOfAppend(Filter(s.transactions, IncomeOf(v)), Filter([t], IncomeOf(v)), Amount);
    IncomeOfOne(t, v);
    assert t.tType == Income <==> input.tType == "income";
  }

  /** Deleting user `u` empties `u`'s income total and leaves every other
      user's total as it was: the cascade removes only `u`'s rows, and
      SET_NULL changes no owner, type or amount. */
  lemma DeleteUserIncomeTotals(s: State, u: UserId, v: UserId)
    ensures IncomeList(DeleteUser(s, u), v).total == if v == u then 0 else IncomeList(s, v).total
  {
    var r := DeleteUser(s, u);
    if v == u {
      forall t | t in r.transactions
        ensures !(t.user == u && t.tType == Income)
      {
        var o :| o in s.transactions && o.user != u && t == Detach(o, CategoryIdsOf(s, u));
      }
      NoIncomeZeroTotal(r, u);
    } else {
      IncomeTotalIsTableSum(s, v);
      IncomeTotalIsTableSum(r, v);
      KeepOthersIncomeSum(s.transactions, u, CategoryIdsOf(s, u), v);
    }
  }

  /** Another user's income sum over the rows that survive deleting `u`. */
  lemma {:induction false} KeepOthersIncomeSum(ts: seq<Transaction>, u: UserId, dead: set<CategoryId>, v: UserId)
    requires v != u
    ensures SumOf(Filter(KeepOthers(ts, u, dead), IncomeOf(v)), Amount) == SumOf(Filter(ts, IncomeOf(v)), Amount)
  {
    if |ts| > 0 {
      var rest := ts[1..];
      var kept := KeepOthers(rest, u, dead);
      KeepOthersIncomeSum(rest, u, dead, v);
      assert ts == [ts[0]] + rest;
      IncomeSumCons(ts[0], rest, v);
      KeepOthersCons(ts, u, dead);
      if ts[0].user != u {
        var d := Detach(ts[0], dead);
        assert d.user == ts[0].user && d.tType == ts[0].tType && d.amount == ts[0].amount;
        IncomeSumCons(d, kept, v);
      }
    }
  }

  /** `KeepOthers` on a non-empty table, one row at a time. */
  lemma KeepOthersCons(ts: seq<Transaction>, u: UserId, dead: set<CategoryId>)
    requires |ts| > 0
    ensures KeepOthers(ts, u, dead) ==
      if ts[0].user != u then [Detach(ts[0], dead)] + KeepOthers(ts[1..], u, dead) else KeepOthers(ts[1..], u, dead)
  {
  }

  /** The income sum of a row followed by others. */
  lemma IncomeSumCons(t: Transaction, rest: seq<Transaction>, v: UserId)
    ensures SumOf(Filter([t] + rest, IncomeOf(v)), Amount) ==
      (if t.user == v && t.tType == Income then t.amount else 0) + SumOf(Filter(rest, IncomeOf(v)), Amount)
  {
    FilterAppend([t], rest, IncomeOf(v));
    SumOfAppend(Filter([t], IncomeOf(v)), Filter(rest, IncomeOf(v)), Amount);
    IncomeOfOne(t, v);
  }

  /** The income contribution of a single transaction. */
  lemma IncomeOfOne(t: Transaction, v: UserId)
    ensures SumOf(Filter([t], IncomeOf(v)), Amount) == if t.user == v && t.tType == Income then t.amount else 0
  {
    assert [t][1..] == [];
    if t.user == v && t.tType == Income {
      assert Filter([t], IncomeOf(v)) == [t];
      assert SumOf([t], Amount) == t.amount + SumOf([t][1..], Amount);
    } else {
      assert Filter([t], IncomeOf(v)) == [];
    }
  }

  // A worked scenario: alice (1) administers the group "Trip" (10), invites
  // bob (2), bob accepts, alice removes bob and invites him again.

  function TripAdmin(): Membership { Membership(1, 1, 10, Admin, 0) }
  function TripBob(): Membership { Membership(2, 2, 10, Member, 6) }
  function TripSent(): Invitation { Invitation(1, 1, 2, 10, Pending, 5) }

  function TripStart(): State
  {
    State(map["alice" := 1, "bob" := 2], map[10 := UserGroup("Trip")],
          [TripAdmin()], [], [], [], 2, 1, 1, 1)
  }

  function TripInvited(): State { TripStart().(invitations := [TripSent()], nextInvitationId := 2) }

  function TripJoined(): State
  {
    TripInvited().(invitations := [TripSent().(status := Accepted)],
                   memberships := [TripAdmin(), TripBob()], nextMembershipId := 3)
  }

  function TripRemoved(): State { TripJoined().(memberships := [TripAdmin()]) }

  lemma TripInviteStep()
    ensures Invite(TripStart(), 1, 10, "bob", 5) == Step(Ok, TripInvited())
  {
    var s := TripStart();
    assert TripAdmin() in s.memberships && IsAdmin(s, 1, 10);
    assert !IsMember(s, 2, 10);
  }

  lemma TripAcceptStep()
    ensures Accept(TripInvited(), 2, 1, 6) == Step(Ok, TripJoined())
  {
    assert FindFirst(TripInvited().invitations, AddressedTo(1, 2)) == Some(0);
  }

  lemma TripRemoveStep()
    ensures RemoveMember(TripJoined(), 1, 10, 2) == Step(Ok, TripRemoved())
  {
    var s := TripJoined();
    assert TripAdmin() in s.memberships && IsAdmin(s, 1, 10);
    assert s.memberships[1..] == [TripBob()];
    assert FindFirst(s.memberships[1..], RowOfGroup(2, 10)) == Some(0);
    assert FindFirst(s.memberships, RowOfGroup(2, 10)) == Some(1);
    assert RemoveAt(s.memberships, 1) == [TripAdmin()];
  }

  lemma TripReinviteStep()
    ensures Invite(TripRemoved(), 1, 10, "bob", 7).outcome == Ok
    ensures Invite(TripRemoved(), 1, 10, "bob", 7).state.invitations ==
      [TripSent().(status := Accepted), Invitation(2, 1, 2, 10, Pending, 7)]
  {
    var s := TripRemoved();
    assert TripAdmin() in s.memberships && IsAdmin(s, 1, 10);
    assert !IsMember(s, 2, 10);
    assert !HasPendingInvitation(s, 2, 10);
  }

  /** The whole scenario succeeds step by step. */
  lemma TripScenario()
    ensures
      var s1 := Invite(TripStart(), 1, 10, "bob", 5);
      var s2 := Accept(s1.state, 2, 1, 6);
      var s3 := RemoveMember(s2.state, 1, 10, 2);
      var s4 := Invite(s3.state, 1, 10, "bob", 7);
      && s1.outcome == Ok && s2.outcome == Ok && s3.outcome == Ok && s4.outcome == Ok
      && s2.state.memberships == [Membership(1, 1, 10, Admin, 0), Membership(2, 2, 10, Member, 6)]
      && s4.state.invitations == [Invitation(1, 1, 2, 10, Accepted, 5), Invitation(2, 1, 2, 10, Pending, 7)]
  {
    TripInviteStep();
    TripAcceptStep();
    TripRemoveStep();
    TripReinviteStep();
  }
}

=== FILE: sorting.dfy ===
/** Ordering of query results (`order_by(...)`), modelled as a stable
    insertion sort over a total preorder. Ties are left in table order, which
    is one of the orders the database may return. */
module Sorting {

  /** `le(a, b)` says `a` may come before `b`: total and transitive. */
  ghost predicate TotalPreorder<T(!new)>(le: (T, T) -> bool)
  {
    && (forall a, b :: le(a, b) || le(b, a))
    && (forall a, b, c :: le(a, b) && le(b, c) ==> le(a, c))
  }

  predicate SortedBy<T>(s: seq<T>, le: (T, T) -> bool)
  {
    forall i, j :: 0 <= i < j < |s| ==> le(s[i], s[j])
  }

  function Insert<T(!new)>(x: T, s: seq<T>, le: (T, T) -> bool): (r: seq<T>)
    requires TotalPreorder(le)
    requires SortedBy(s, le)
    ensures SortedBy(r, le)
    ensures multiset(r) == multiset(s) + multiset{x}
    ensures forall y :: y in r ==> y == x || y in s
  {
    if |s| == 0 then [x]
    else if le(x, s[0]) then [x] + s
    else
      var tail := Insert(x, s[1..], le);
      assert s == [s[0]] + s[1..];
      assert le(s[0], x);
      assert forall j :: 0 <= j < |tail| ==> tail[j] == x || tail[j] in s[1..];
      [s[0]] + tail
  }

  /** `s` rearranged into `le` order. */
  function Sort<T(!new)>(s: seq<T>, le: (T, T) -> bool): (r: seq<T>)
    requires TotalPreorder(le)
    ensures SortedBy(r, le)
    ensures multiset(r) == multiset(s)
  {
    if |s| == 0 then []
    else
      assert s == [s[0]] + s[1..];
      Insert(s[0], Sort(s[1..], le), le)
  }
}

=== FILE: util.dfy ===
/** Small generic helpers over sequences used throughout the model: optional
    values, results, first-match lookup, filtering and summation. They stand in
    for the ORM's `get`, `first()`, `filter(...)` and `aggregate(Sum(...))`. */
module Util {

  datatype Option<+T> = None | Some(value: T)

  datatype Result<+T, +E> = Success(value: T) | Failure(error: E)

  /** Index of the first element satisfying `p`, if there is one. */
  function FindFirst<T>(s: seq<T>, p: T -> bool): (r: Option<nat>)
    ensures r.Some? ==> r.value < |s| && p(s[r.value])
    ensures r.Some? ==> forall j :: 0 <= j < r.value ==> !p(s[j])
    ensures r.None? <==> forall j :: 0 <= j < |s| ==> !p(s[j])
  {
    if |s| == 0 then None
    else if p(s[0]) then Some(0)
    else match FindFirst(s[1..], p)
      case None => None
      case Some(k) => Some(k + 1)
  }

  /** The elements of `s` satisfying `p`, in their original order. */
  function Filter<T(!new)>(s: seq<T>, p: T -> bool): (r: seq<T>)
    ensures forall x :: multiset(r)[x] == if p(x) then multiset(s)[x] else 0
    ensures forall x :: x in r <==> x in s && p(x)
    ensures |r| <= |s|
  {
    if |s| == 0 then []
    else
      assert s == [s[0]] + s[1..];
      if p(s[0]) then [s[0]] + Filter(s[1..], p) else Filter(s[1..], p)
  }

  lemma {:induction false} FilterAppend<T(!new)>(a: seq<T>, b: seq<T>, p: T -> bool)
    ensures Filter(a + b, p) == Filter(a, p) + Filter(b, p)
  {
    if |a| == 0 {
      assert a + b == b;
    } else {
      assert (a + b)[1..] == a[1..] + b;
      FilterAppend(a[1..], b, p);
    }
  }

  /** The sum of `f` over the elements of `s`. */
  function SumOf<T>(s: seq<T>, f: T -> int): int
  {
    if |s| == 0 then 0 else f(s[0]) + SumOf(s[1..], f)
  }

  lemma {:induction false} SumOfAppend<T>(a: seq<T>, b: seq<T>, f: T -> int)
    ensures SumOf(a + b, f) == SumOf(a, f) + SumOf(b, f)
  {
    if |a| == 0 {
      assert a + b == b;
    } else {
      assert (a + b)[1..] == a[1..] + b;
      SumOfAppend(a[1..], b, f);
    }
  }

  /** A sum does not depend on the order of its terms. */
  lemma {:induction false} SumOfPermutation<T>(a: seq<T>, b: seq<T>, f: T -> int)
    requires multiset(a) == multiset(b)
    ensures SumOf(a, f) == SumOf(b, f)
  {
    if |a| == 0 {
      assert |b| == |multiset(b)| == 0;
    } else {
      var x := a[0];
      assert a == [x] + a[1..];
      assert multiset(a) == multiset{x} + multiset(a[1..]);
      assert x in multiset(b);
      var k :| 0 <= k < |b| && b[k] == x;
      assert b == b[..k] + ([x] + b[k + 1..]);
      var rest := b[..k] + b[k + 1..];
      assert multiset(b) == multiset(b[..k]) + multiset{x} + multiset(b[k + 1..]);
      assert multiset(rest) == multiset(b[..k]) + multiset(b[k + 1..]);
      assert multiset(a[1..]) == multiset(a) - multiset{x};
      assert multiset(rest) == multiset(b) - multiset{x};
      SumOfPermutation(a[1..], rest, f);
      SumOfAppend(b[..k], [x] + b[k + 1..], f);
      SumOfAppend([x], b[k + 1..], f);
      SumOfAppend(b[..k], b[k + 1..], f);
      assert SumOf([x], f) == f(x) + SumOf([x][1..], f);
      calc {
        SumOf(b, f);
        SumOf(b[..k], f) + SumOf([x] + b[k + 1..], f);
        SumOf(b[..k], f) + f(x) + SumOf(b[k + 1..], f);
        f(x) + SumOf(rest, f);
        f(x) + SumOf(a[1..], f);
      }
    }
  }

  /** Every element of `s` removed except the one at index `i`. */
  function RemoveAt<T>(s: seq<T>, i: nat): (r: seq<T>)
    requires i < |s|
    ensures |r| == |s| - 1
    ensures multiset(r) == multiset(s) - multiset{s[i]}
    ensures forall j :: 0 <= j < i ==> r[j] == s[j]
    ensures forall j :: i <= j < |r| ==> r[j] == s[j + 1]
  {
    assert s == s[..i] + [s[i]] + s[i + 1..];
    s[..i] + s[i + 1..]
  }

  /** Every element left by `RemoveAt` came from another position. */
  lemma RemoveAtFrom<T>(s: seq<T>, i: nat, x: T)
    requires i < |s| && x in RemoveAt(s, i)
    ensures exists j :: 0 <= j < |s| && j != i && s[j] == x
  {
    var r := RemoveAt(s, i);
    var a :| 0 <= a < |r| && r[a] == x;
    if a < i {
      assert s[a] == x;
    } else {
      assert s[a + 1] == x;
    }
  }

  /** Every other position survives `RemoveAt`. */
  lemma RemoveAtKeeps<T>(s: seq<T>, i: nat, j: nat)
    requires i < |s| && j < |s| && j != i
    ensures s[j] in RemoveAt(s, i)
  {
    var r := RemoveAt(s, i);
    if j < i {
      assert r[j] == s[j];
    } else {
      assert r[j - 1] == s[j];
    }
  }
}

=== FILE: views.dfy ===
/** The request handlers of finance/views.py as transitions on `State`.
    The logged-in user is the explicit `actor` (or `u`) parameter, the clock
    is the `now` parameter, and a handler's HTTP response is reduced to an
    `Outcome` (redirects are `Ok`, 404 is `NotFound`, 403 is `Forbidden`, the
    plain-text refusals have their own tags, a re-rendered form with errors is
    `ValidationError`). */
module Views {
  import opened Util
  import opened Sorting
  import opened Models
  import opened Forms

  datatype Outcome =
    | Ok
    | Forbidden
    | NotFound
      /** "invitation already processed" */
    | AlreadyProcessed
      /** "the group's admin cannot be removed" */
    | CannotRemoveAdmin
      /** "you cannot remove yourself, use Leave" */
    | CannotRemoveSelf
    | ValidationError(errors: seq<FormError>)

  datatype Step = Step(outcome: Outcome, state: State)

  // Query predicates, named so that every use denotes the same function

  function PendingFor(u: UserId): Invitation -> bool
  {
    (inv: Invitation) => inv.toUser == u && inv.status == Pending
  }

  function AddressedTo(id: InvitationId, u: UserId): Invitation -> bool
  {
    (inv: Invitation) => inv.id == id && inv.toUser == u
  }

  function RowOfGroup(id: MembershipId, g: GroupId): Membership -> bool
  {
    (m: Membership) => m.id == id && m.group == g
  }

  function InGroup(g: GroupId): Membership -> bool
  {
    (m: Membership) => m.group == g
  }

  function OfUser(u: UserId): Membership -> bool
  {
    (m: Membership) => m.user == u
  }

  function IncomeOf(u: UserId): Transaction -> bool
  {
    (t: Transaction) => t.user == u && t.tType == Income
  }

  function Amount(t: Transaction): int
  {
    t.amount
  }

  // Orderings used by order_by(...)

  /** order_by('-created_at') */
  predicate NewerInvitationFirst(a: Invitation, b: Invitation)
  {
    a.createdAt >= b.createdAt
  }

  /** order_by('-joined_at') */
  predicate LaterJoinFirst(a: Membership, b: Membership)
  {
    a.joinedAt >= b.joinedAt
  }

  /** order_by('-date') */
  predicate NewerTransactionFirst(a: Transaction, b: Transaction)
  {
    a.date >= b.date
  }

  /** order_by('role', 'joined_at'): "admin" sorts before "member". */
  predicate RoleThenJoined(a: Membership, b: Membership)
  {
    (a.role == Admin && b.role == Member) || (a.role == b.role && a.joinedAt <= b.joinedAt)
  }

  lemma OrderingsArePreorders()
    ensures TotalPreorder(NewerInvitationFirst)
    ensures TotalPreorder(LaterJoinFirst)
    ensures TotalPreorder(NewerTransactionFirst)
    ensures TotalPreorder(RoleThenJoined)
  {
  }

  // invite_to_group (POST)

  /** `actor` invites the user named `username` to group `g`. The group must
      exist and `actor` must be one of its admins; then the invitation form
      decides; on success one pending invitation is appended. */
  function Invite(s: State, actor: UserId, g: GroupId, username: string, now: int): (r: Step)
    ensures r.outcome == Ok || r.outcome == NotFound || r.outcome == Forbidden || r.outcome.ValidationError?
    ensures r.outcome != Ok ==> r.state == s
    ensures g !in s.groups ==> r.outcome == NotFound
    ensures g in s.groups && !IsAdmin(s, actor, g) ==> r.outcome == Forbidden
    ensures r.outcome == NotFound ==> g !in s.groups
    ensures r.outcome == Forbidden ==> g in s.groups && !IsAdmin(s, actor, g)
    ensures r.outcome.ValidationError? <==>
      g in s.groups && IsAdmin(s, actor, g) && CleanInvitationForm(s, g, username).Failure?
    ensures r.outcome.ValidationError? ==> r.outcome.errors == CleanInvitationForm(s, g, username).error
    ensures r.outcome == Ok ==>
      && g in s.groups
      && IsAdmin(s, actor, g)
      && username in s.users
      && !IsMember(s, s.users[username], g)
      && !HasPendingInvitation(s, s.users[username], g)
    ensures r.outcome == Ok ==>
      && |r.state.invitations| == |s.invitations| + 1
      && r.state.invitations[..|s.invitations|] == s.invitations
      && r.state.invitations[|s.invitations|] ==
           Invitation(s.nextInvitationId, actor, s.users[username], g, Pending, now)
      && r.state.nextInvitationId == s.nextInvitationId + 1
      && r.state.(invitations := s.invitations, nextInvitationId := s.nextInvitationId) == s
  {
    if g !in s.groups then Step(NotFound, s)
    else if !IsAdmin(s, actor, g) then Step(Forbidden, s)
    else match CleanInvitationForm(s, g, username)
      case Failure(errors) => Step(ValidationError(errors), s)
      case Success(name) =>
        var inv := Invitation(s.nextInvitationId, actor, s.users[name], g, Pending, now);
        Step(Ok, s.(invitations := s.invitations + [inv], nextInvitationId := s.nextInvitationId + 1))
  }

  // invitations_list

  /** The pending invitations addressed to `u`, newest first. */
  function PendingInvitations(s: State, u: UserId): (r: seq<Invitation>)
    ensures forall x :: multiset(r)[x] ==
                        (if x.toUser == u && x.status == Pending then multiset(s.invitations)[x] else 0)
    ensures forall x :: x in r <==> x in s.invitations && x.toUser == u && x.status == Pending
    ensures forall i, j :: 0 <= i < j < |r| ==> r[i].createdAt >= r[j].createdAt
  {
    OrderingsArePreorders();
    var r := Sort(Filter(s.invitations, PendingFor(u)), NewerInvitationFirst);
    assert forall x :: x in r <==> x in multiset(r);
    r
  }

  // accept_invitation / reject_invitation

  /** `u` accepts invitation `id`. Only an invitation addressed to `u` is
      found; only a pending one is processed; processing adds a `member`
      membership (unconditionally) and marks the invitation accepted. */
  function Accept(s: State, u: UserId, id: InvitationId, now: int): (r: Step)
    ensures r.outcome == Ok || r.outcome == NotFound || r.outcome == AlreadyProcessed
    ensures r.outcome != Ok ==> r.state == s
    ensures r.outcome == NotFound <==>
      forall i :: 0 <= i < |s.invitations| ==> !(s.invitations[i].id == id && s.invitations[i].toUser == u)
    ensures r.outcome == AlreadyProcessed ==>
      exists i :: 0 <= i < |s.invitations| && s.invitations[i].id == id && s.invitations[i].toUser == u
        && s.invitations[i].status != Pending
    ensures r.outcome == Ok ==>
      exists i :: 0 <= i < |s.invitations| && s.invitations[i].id == id && s.invitations[i].toUser == u
        && s.invitations[i].status == Pending
        && r.state == s.(
             invitations := s.invitations[i := s.invitations[i].(status := Accepted)],
             memberships := s.memberships + [Membership(s.nextMembershipId, u, s.invitations[i].group, Member, now)],
             nextMembershipId := s.nextMembershipId + 1)
  {
    match FindFirst(s.invitations, AddressedTo(id, u))
    case None => Step(NotFound, s)
    case Some(i) =>
      var inv := s.invitations[i];
      if inv.status != Pending then Step(AlreadyProcessed, s)
      else
        var m := Membership(s.nextMembershipId, u, inv.group, Member, now);
        Step(Ok, s.(
          invitations := s.invitations[i := inv.(status := Accepted)],
          memberships := s.memberships + [m],
          nextMembershipId := s.nextMembershipId + 1))
  }

  /** `u` rejects invitation `id`: the same lookup and state check as
      `Accept`; processing only marks the invitation rejected. */
  function Reject(s: State, u: UserId, id: InvitationId): (r: Step)
    ensures r.outcome == Ok || r.outcome == NotFound || r.outcome == AlreadyProcessed
    ensures r.outcome != Ok ==> r.state == s
    ensures r.outcome == NotFound <==>
      forall i :: 0 <= i < |s.invitations| ==> !(s.invitations[i].id == id && s.invitations[i].toUser == u)
    ensures r.outcome == AlreadyProcessed ==>
      exists i :: 0 <= i < |s.invitations| && s.invitations[i].id == id && s.invitations[i].toUser == u
        && s.invitations[i].status != Pending
    ensures r.outcome == Ok ==>
      exists i :: 0 <= i < |s.invitations| && s.invitations[i].id == id && s.invitations[i].toUser == u
        && s.invitations[i].status == Pending
        && r.state == s.(invitations := s.invitations[i := s.invitations[i].(status := Rejected)])
  {
    match FindFirst(s.invitations, AddressedTo(id, u))
    case None => Step(NotFound, s)
    case Some(i) =>
      var inv := s.invitations[i];
      if inv.status != Pending then Step(AlreadyProcessed, s)
      else Step(Ok, s.(invitations := s.invitations[i := inv.(status := Rejected)]))
  }

  // group_members

  datatype MembersPage = MembersPage(members: seq<Membership>, isAdmin: bool)

  /** GET: the group's memberships, admins first and then by join time, for
      a caller who is a member of the group. */
  function ListMembers(s: State, actor: UserId, g: GroupId): (r: Result<MembersPage, Outcome>)
    ensures g !in s.groups ==> r == Failure(NotFound)
    ensures g in s.groups && !IsMember(s, actor, g) ==> r == Failure(Forbidden)
    ensures r.Success? <==> g in s.groups && IsMember(s, actor, g)
    ensures r.Success? ==> forall m :: multiset(r.value.members)[m] ==
                                       (if m.group == g then multiset(s.memberships)[m] else 0)
    ensures r.Success? ==> forall i, j :: 0 <= i < j < |r.value.members| ==>
      && !(r.value.members[i].role == Member && r.value.members[j].role == Admin)
      && (r.value.members[i].role == r.value.members[j].role ==>
            r.value.members[i].joinedAt <= r.value.members[j].joinedAt)
    ensures r.Success? ==> (r.value.isAdmin <==> IsAdmin(s, actor, g))
  {
    if g !in s.groups then Failure(NotFound)
    else if !IsMember(s, actor, g) then Failure(Forbidden)
    else
      OrderingsArePreorders();
      var members := Sort(Filter(s.memberships, InGroup(g)), RoleThenJoined);
      RoleOrder(members);
      Success(MembersPage(members, IsAdmin(s, actor, g)))
  }

  lemma RoleOrder(ms: seq<Membership>)
    requires SortedBy(ms, RoleThenJoined)
    ensures forall i, j :: 0 <= i < j < |ms| ==>
      && !(ms[i].role == Member && ms[j].role == Admin)
      && (ms[i].role == ms[j].role ==> ms[i].joinedAt <= ms[j].joinedAt)
  {
    forall i, j | 0 <= i < j < |ms|
      ensures !(ms[i].role == Member && ms[j].role == Admin)
      ensures ms[i].role == ms[j].role ==> ms[i].joinedAt <= ms[j].joinedAt
    {
      assert RoleThenJoined(ms[i], ms[j]);
    }
  }

  /** POST: `actor` removes membership `memberId` from group `g`. The guards
      run in this order: unknown group, caller not a member, caller not an
      admin, no such membership in the group, target is an admin, target is
      the caller; only then is the one row deleted. */
  function RemoveMember(s: State, actor: UserId, g: GroupId, memberId: MembershipId): (r: Step)
    ensures r.outcome in {Ok, NotFound, Forbidden, CannotRemoveAdmin, CannotRemoveSelf}
    ensures r.outcome != Ok ==> r.state == s
    ensures g !in s.groups ==> r.outcome == NotFound
    ensures g in s.groups && !IsMember(s, actor, g) ==> r.outcome == Forbidden
    ensures g in s.groups && IsMember(s, actor, g) && !IsAdmin(s, actor, g) ==> r.outcome == Forbidden
    ensures g in s.groups && IsAdmin(s, actor, g)
      && (forall i :: 0 <= i < |s.memberships| ==> !(s.memberships[i].id == memberId && s.memberships[i].group == g))
      ==> r.outcome == NotFound
    ensures r.outcome == Forbidden ==> g in s.groups && !IsAdmin(s, actor, g)
    ensures r.outcome == NotFound ==>
      g !in s.groups ||
      (IsAdmin(s, actor, g) &&
       forall i :: 0 <= i < |s.memberships| ==> !(s.memberships[i].id == memberId && s.memberships[i].group == g))
    ensures g in s.groups && IsAdmin(s, actor, g) && FindFirst(s.memberships, RowOfGroup(memberId, g)).Some? ==>
      var target := s.memberships[FindFirst(s.memberships, RowOfGroup(memberId, g)).value];
      && (target.role == Admin ==> r.outcome == CannotRemoveAdmin)
      && (target.role == Member && target.user == actor ==> r.outcome == CannotRemoveSelf)
      && (target.role == Member && target.user != actor ==> r.outcome == Ok)
    ensures r.outcome == CannotRemoveAdmin ==>
      IsAdmin(s, actor, g) &&
      exists i :: 0 <= i < |s.memberships| && s.memberships[i].id == memberId && s.memberships[i].group == g
        && s.memberships[i].role == Admin
    ensures r.outcome == CannotRemoveSelf ==>
      IsAdmin(s, actor, g) &&
      exists i :: 0 <= i < |s.memberships| && s.memberships[i].id == memberId && s.memberships[i].group == g
        && s.memberships[i].role == Member && s.memberships[i].user == actor
    ensures r.outcome == Ok ==>
      g in s.groups && IsAdmin(s, actor, g) &&
      exists i :: 0 <= i < |s.memberships| && s.memberships[i].id == memberId && s.memberships[i].group == g
        && s.memberships[i].role == Member && s.memberships[i].user != actor
        && r.state == s.(memberships := RemoveAt(s.memberships, i))
  {
    if g !in s.groups then Step(NotFound, s)
    else if !IsMember(s, actor, g) then Step(Forbidden, s)
    else if !IsAdmin(s, actor, g) then Step(Forbidden, s)
    else match FindFirst(s.memberships, RowOfGroup(memberId, g))
      case None => Step(NotFound, s)
      case Some(i) =>
        var target := s.memberships[i];
        if target.role == Admin then Step(CannotRemoveAdmin, s)
        else if target.user == actor then Step(CannotRemoveSelf, s)
        else Step(Ok, s.(memberships := RemoveAt(s.memberships, i)))
  }

  // group_list

  /** The memberships of `u`, most recently joined first. */
  function GroupList(s: State, u: UserId): (r: seq<Membership>)
    ensures forall m :: multiset(r)[m] == if m.user == u then multiset(s.memberships)[m] else 0
    ensures forall i, j :: 0 <= i < j < |r| ==> r[i].joinedAt >= r[j].joinedAt
  {
    OrderingsArePreorders();
    Sort(Filter(s.memberships, OfUser(u)), LaterJoinFirst)
  }

  // add_transaction, transaction_detail, add_category

  /** `u` submits the transaction form; on success one transaction owned by
      `u`, with the chosen group (or none), dated `now`, is appended. */
  function AddTransaction(s: State, u: UserId, input: TransactionInput, now: int): (r: Step)
    ensures r.outcome == Ok <==> CleanTransaction(s, u, input).Success?
    ensures r.outcome != Ok ==>
      r == Step(ValidationError(CleanTransaction(s, u, input).error), s)
    ensures r.outcome == Ok ==>
      && |r.state.transactions| == |s.transactions| + 1
      && r.state.transactions[..|s.transactions|] == s.transactions
      && r.state.nextTransactionId == s.nextTransactionId + 1
      && r.state.(transactions := s.transactions, nextTransactionId := s.nextTransactionId) == s
    ensures r.outcome == Ok ==>
      var t := r.state.transactions[|s.transactions|];
      && t.id == s.nextTransactionId
      && t.user == u
      && TxTypeCode(t.tType) == input.tType
      && ValidCents(t.amount)
      && input.amount.exponent >= -(AmountDecimalPlaces as int)
      && t.amount == ToCents(input.amount)
      && t.category == input.category
      && t.description == input.description
      && t.date == now
      && t.group == input.group
      && (t.category.Some? ==> OwnsCategory(s, u, t.category.value))
      && (t.group.Some? ==> t.group.value in s.groups && IsMember(s, u, t.group.value))
  {
    match CleanTransaction(s, u, input)
    case Failure(errors) => Step(ValidationError(errors), s)
    case Success(c) =>
      var t := Transaction(s.nextTransactionId, u, c.tType, c.amount, c.category, c.description, now, c.group);
      Step(Ok, s.(transactions := s.transactions + [t], nextTransactionId := s.nextTransactionId + 1))
  }

  /** The transaction with primary key `pk`, looked up among `u`'s own
      transactions only. `None` is the unhandled "does not exist" error. */
  function TransactionDetail(s: State, u: UserId, pk: TransactionId): (r: Option<Transaction>)
    ensures r.Some? ==> r.value in s.transactions && r.value.id == pk && r.value.user == u
    ensures r.None? <==> forall t :: t in s.transactions ==> !(t.id == pk && t.user == u)
  {
    match FindFirst(s.transactions, (t: Transaction) => t.id == pk && t.user == u)
    case None => None
    case Some(i) => Some(s.transactions[i])
  }

  /** `u` submits the category form (name only); the new category belongs to
      `u`, has no icon and is not an income category. */
  function AddCategory(s: State, u: UserId, name: string): (r: Step)
    ensures r.outcome == Ok <==> 0 < |name| <= CategoryNameMaxLength && '\0' !in name
    ensures r.outcome != Ok ==> r.state == s && r.outcome.ValidationError?
    ensures r.outcome != Ok ==> r.outcome.errors == CleanCharField(NameField, name, CategoryNameMaxLength).error
    ensures r.outcome == Ok ==>
      && |r.state.categories| == |s.categories| + 1
      && r.state.categories[..|s.categories|] == s.categories
      && r.state.categories[|s.categories|] == Category(s.nextCategoryId, u, name, "", false)
      && r.state.nextCategoryId == s.nextCategoryId + 1
      && r.state.(categories := s.categories, nextCategoryId := s.nextCategoryId) == s
  {
    match CleanCategoryForm(name)
    case Failure(errors) => Step(ValidationError(errors), s)
    case Success(n) =>
      Step(Ok, s.(categories := s.categories + [Category(s.nextCategoryId, u, n, "", false)],
                  nextCategoryId := s.nextCategoryId + 1))
  }

  // income_list

  datatype IncomePage = IncomePage(incomes: seq<Transaction>, total: int)

  /** `u`'s income transactions, newest first, and the sum of their amounts
      (zero when there are none). */
  function IncomeList(s: State, u: UserId): (r: IncomePage)
    ensures forall t :: multiset(r.incomes)[t] ==
                        (if t.user == u && t.tType == Income then multiset(s.transactions)[t] else 0)
    ensures forall i, j :: 0 <= i < j < |r.incomes| ==> r.incomes[i].date >= r.incomes[j].date
    ensures r.total == SumOf(r.incomes, Amount)
    ensures |r.incomes| == 0 ==> r.total == 0
  {
    OrderingsArePreorders();
    var incomes := Sort(Filter(s.transactions, IncomeOf(u)), NewerTransactionFirst);
    IncomePage(incomes, SumOf(incomes, Amount))
  }
}
